=== FILE: README.md ===
# neptune-gremlin core, modelled in Dafny

This project models the data-shaping core of the Hackolade plugin for Amazon
Neptune (Gremlin). Two paths are covered.

**Reverse engineering.** The plugin samples a Neptune cluster:
- It counts the vertices of each label and plans a sample size.
- It fetches `valueMap` rows and flattens them into plain objects.
- It infers a JSON Schema and, optionally, a document template.
- It builds one package per label and sorts the packages by the caller's label list.
- It discovers which edge labels join which vertex labels, keeps the triples whose two ends were sampled, and builds one package per triple.

**Forward engineering.** The plugin assembles the vertex and edge blocks of a script. It then splits a script back into statements, routes them by the `g.addV` prefix, and submits vertex statements before edge statements.

## How it is modelled

JavaScript values are a tagged `JsValue.Value`:
- `Undefined`;
- scalars;
- arrays;
- ES `Map`s, with entries in insertion order and keys that are strings or Gremlin `T` tokens;
- plain objects.

The network is the `Queries.Gateway` datatype, a set of total functions. Each function maps a `Queries.Query` to its result. `Queries.Text` gives the Gremlin text of each query.

`async.map` and `Promise.all` run independent work concurrently. The model runs that work one item after another, in input order. Where the source uses the results `async.map` returns, that order is the source's order too. `getDbCollectionsData` instead pushes each database's packages onto a shared array as its work completes; "## Left out" says what the model fixes there. In the apply path, submission is a trace of statements, and the server's answer to each statement is the `reply` parameter.

Modules:
- `Sampling`: `getSampleDocSize`.
- `Normalize`: `handleMap` and `getItemProperties`.
- `Template`: lodash `_.merge` and `getTemplate`.
- `Schema`: `getSchema`.
- `StableSort`: `Array.prototype.sort`.
- `Queries`: the query builders and `getRelationshipSchema`.
- `Packages`: the orchestration in reverse_engineering/api.js.
- `Errors`: `prepareError` and `mapError`.
- `Script`: `generateContainerScript` and `parseScriptStatements`.
- `Apply`: `applyToInstance` and `runGremlinQueries`.
- `Seqs`, `Decimal`, `Wrappers`: helpers.

Where the intended design and the code differ, the model follows the code:
- **Absent labels sort first.** A package whose label is not in the caller's list sorts *first*. `_.indexOf` yields -1, never `undefined`, so the `_.isUndefined` branches of `sortPackagesByLabels` are dead.
- **Absolute mode can exceed the population.** The design says a sample size never exceeds the population. In absolute mode the configured value is returned whatever the count.
- **Where the relative cap is read.** The cap is the top-level `recordSamplingSettings.maxValue`. `relative.maxValue` is never read.
- **`emptyBucket` is constant.** It is always `false`.
- **Relationship packages are never suppressed.** There is no emptiness test for them.

## Model

| member | source | states |
|---|---|---|
| Sampling.CeilDiv | reverse_engineering/api.js:159 | `Math.ceil(a / b)` on integers: the least `q` with `q * b >= a` |
| Sampling.SampleDocSize | reverse_engineering/api.js:154-162 | absolute mode returns `absolute.value`; otherwise the result is at most `maxValue` and equals the ceiling of `count * v / 100` unless that ceiling exceeds `maxValue` |
| Sampling.AbsoluteIgnoresCount | reverse_engineering/api.js:155-157 | in absolute mode every population size gives the same sample size, the configured value, which may exceed the population |
| Sampling.RelativeWithinPopulation | reverse_engineering/api.js:159-161 | in relative mode with `0 <= v <= 100` the sample never exceeds the population, and is non-negative when the cap is |
| Sampling.NestedCapIgnored | reverse_engineering/api.js:159-161 | changing `relative.maxValue` never changes the sample size: only the top-level cap is read |
| Normalize.HandleMapUpTo | reverse_engineering/queryHelper.js:83-89 | after folding `n` entries the object's keys are the property names of those entries |
| Normalize.ConvertedAt | reverse_engineering/queryHelper.js:84-88 | a nested Map becomes an object with the Map's key names; any other value is kept |
| Normalize.HandleMapValueAt | reverse_engineering/queryHelper.js:83-89 | the value kept for a key is the converted value of the last entry with that key |
| Normalize.HandleMap | reverse_engineering/queryHelper.js:82-90 | every key of the Map is kept (tokens by their name); nested Maps become objects recursively; arrays and scalars are kept as they are |
| Normalize.ItemPropertiesUpTo | reverse_engineering/queryHelper.js:93-105 | after folding `n` entries the keys are exactly the string keys among them, each holding the collapsed value of its last entry |
| Normalize.GetItemProperties | reverse_engineering/queryHelper.js:92-106 | non-string keys are dropped; the key set is the row's string keys; an array gives its first element (`undefined` when empty), a Map is converted by `handleMap`, anything else is kept; no property is still a Map |
| Normalize.EntryValue | reverse_engineering/queryHelper.js:98-104 | an array stands for its first element, `undefined` when it is empty; a Map found there, or given directly, becomes an object through `handleMap`; anything else is kept; the value is never a Map |
| Normalize.FlatRowUnchanged | reverse_engineering/queryHelper.js:92-106 | a row of distinct string keys with no array or Map values comes back as exactly its entries |
| Template.MergeValue | reverse_engineering/api.js:179 | lodash `_.merge`: an object source keeps all its keys and, over an object, unions the keys; a key the source lacks keeps the destination's value and a scalar of the source replaces it; an array source yields an array as long as the longer of the two, whose positions past the source keep the destination's items and whose scalar positions are the source's; scalars and Maps are assigned; `undefined` keeps the destination |
| Template.MergeDocument | reverse_engineering/api.js:179 | merging an object document unions its keys into the template; its scalar values win; every template key the document lacks keeps its value; a non-object document changes nothing |
| Template.MergeAll | reverse_engineering/api.js:179 | the folded template's keys are the seed's keys plus the keys of every object document |
| Template.Seed | reverse_engineering/api.js:173 | the seed has exactly the root keys, each holding `{}` |
| Template.GetTemplate | reverse_engineering/api.js:172-180 | a non-array gives the seed; otherwise the keys are the root keys plus every document's keys |
| Template.MergeKeepsSourcePaths | reverse_engineering/api.js:179 | merging never loses a key path of the merged document, and a scalar at the end of such a path is what the result holds there |
| Template.LastDocumentWins | reverse_engineering/api.js:172-180 | every key path of the last document is in the template, and each scalar it holds at the end of a path is what the template holds there. Key paths of earlier documents can be lost; see `Template.EarlierPathCanBeLost` |
| Template.MergeAllSnoc | reverse_engineering/api.js:179 | folding one more document is merging it into the template built so far |
| Template.MergeAllAppend | reverse_engineering/api.js:179 | folding `a + b` is folding `b` onto the template built from `a` |
| Template.MergeAllFrame | reverse_engineering/api.js:179 | a template key that no document holds keeps its value |
| Template.LaterDocumentWins | reverse_engineering/api.js:172-180 | a scalar that document `i` holds at the end of a key path is what the template holds there, provided no later document holds the path's first key; for a top-level key, the last document holding it wins |
| Template.EarlierPathCanBeLost | reverse_engineering/api.js:179 | `{a: {b: 1}}` followed by `{a: 5}` gives a template without the path `a.b`: a later scalar replaces an earlier subtree |
| Template.EmptyDocumentsGiveSeed | reverse_engineering/api.js:173-177 | with no documents, or a non-array, the template is the seed |
| Schema.GetSchema | reverse_engineering/api.js:300-317 | the schema's property names are the union of the converted rows' property names |
| Schema.LaterRowWins | reverse_engineering/api.js:305-310 | the definition kept for a property is that of the last row defining it |
| Schema.GetSchemaAppend | reverse_engineering/api.js:300-317 | the schema of `a + b` is the schema of `b` spread over the schema of `a` |
| Schema.SchemaMonotone | reverse_engineering/api.js:300-317 | more rows never remove a property |
| Schema.EmptyRowsGiveEmptySchema | reverse_engineering/api.js:313-315 | no rows give `{ properties: {} }` |
| StableSort.SortBy | reverse_engineering/api.js:218 | the sorted list is a permutation of the input, ordered by the key |
| StableSort.SortByStable | reverse_engineering/api.js:218 | elements with equal keys keep their input order |
| Decimal.NatToStringRoundTrip | reverse_engineering/queryHelper.js:18 | the decimal text spliced into a query reads back as the number |
| Decimal.IntToString | reverse_engineering/queryHelper.js:18 | a limit is rendered as its decimal digits, with a leading `-` when negative |
| Queries.LimitText | reverse_engineering/queryHelper.js:16-18 | a limit's text holds no quote, and an omitted limit is `100` |
| Queries.NodesQueryEmbedsLabel | reverse_engineering/queryHelper.js:16-18 | a quote-free label is the single quoted literal of the `getNodes` query, between the fixed prefix and suffix |
| Queries.NodesCountQueryNotEscaped | reverse_engineering/queryHelper.js:11 | a label containing a quote is not escaped: the quote closes the literal and the rest of the label becomes query code |
| Queries.CountRelationshipsQueryEmbedsLabels | reverse_engineering/queryHelper.js:59-64 | the edge label, the start label and the end label are the three quoted literals of the edge-count query, in that order |
| Queries.RelationshipDataQueryEmbedsLabels | reverse_engineering/queryHelper.js:69-75 | the same for the edge-data query, whose tail carries the limit |
| Queries.TextQuotesLiterals | reverse_engineering/queryHelper.js:6-75 | for every query whose labels hold no quote, the quoted literals of its text are exactly the labels it was given, in order (edge label, start, end for the edge queries); the discovery query also quotes its step labels `edge` and `end` |
| Queries.RelationshipLimit | reverse_engineering/queryHelper.js:36 | `getLimit(count) \|\| 100`: a zero limit becomes 100, any other is kept |
| Queries.LabelTriples | reverse_engineering/queryHelper.js:33-53 | one triple per returned pair, in order, each starting at the queried label; no pairs give no triples |
| Queries.GetRelationshipSchema | reverse_engineering/queryHelper.js:32-56 | every triple starts at one of the queried labels |
| Queries.GetRelationshipSchemaAppend | reverse_engineering/queryHelper.js:55 | the result for `a + b` is the result for `a` followed by the result for `b`: per-label lists concatenated in label order |
| Packages.AllEmpty | reverse_engineering/api.js:169 | true exactly when every document is empty in the sense of `_.isEmpty` |
| Packages.IsEmptyLabel | reverse_engineering/api.js:164-170 | anything that is not an array is empty; an array is empty exactly when every document in it is |
| Packages.DocumentTemplate | reverse_engineering/api.js:282-284 | a template is present exactly when `fieldInference.active` is `field`, and is then `getTemplate(documents, [])` |
| Packages.GetLabelPackage | reverse_engineering/api.js:260-291 | `null` exactly when empty collections are excluded and the label is empty; otherwise the label, database and documents are passed through, `views` is empty, `emptyBucket` is false, the schema is the one given, and the template is `DocumentTemplate`'s: `getTemplate(documents, [])` in field mode and absent otherwise |
| Packages.IndexOf | reverse_engineering/api.js:219-220 | `_.indexOf`: the first position of the label, or -1 exactly when it is absent |
| Packages.SortPackagesByLabels | reverse_engineering/api.js:217-230 | a permutation of the packages, ordered by label position, with absent labels first, and stable among packages of the same label |
| Packages.Present | reverse_engineering/api.js:212 | `filter(Boolean)` keeps exactly the packages that were not suppressed |
| Packages.PresentCounts | reverse_engineering/api.js:212 | each kept package occurs as often as it was sampled |
| Packages.PresentInOrder | reverse_engineering/api.js:212 | the kept packages are the non-null entries, in their original order |
| Packages.Samples | reverse_engineering/api.js:183 | one sample per label, in label order |
| Packages.PresentSampled | reverse_engineering/api.js:183-212 | the kept packages are exactly the non-null samples, each the sample of its own label |
| Packages.KeepAndSort | reverse_engineering/api.js:182-215 | every kept package is the sample of its label; the list is ordered by label position; a label has a package exactly when its sample is not null; the list is a permutation of the non-null samples, and a label listed `c` times has its package `c` times |
| Packages.RowEmptyIff | reverse_engineering/queryHelper.js:92-105 | a normalised row is empty exactly when the row has no string key |
| Packages.Documents | reverse_engineering/queryHelper.js:21 | one document per returned row, in order, each the row normalised by `getItemProperties` |
| Packages.SampleLabel | reverse_engineering/api.js:183-210 | a label is suppressed exactly when empty collections are excluded and no sampled row has a string key; a kept package holds the normalised rows as its documents, `getSchema` of the `V` rows sampled with the planned limit as its schema, and `getTemplate` of those documents as its template exactly in field mode |
| Packages.GetNodesData | reverse_engineering/api.js:182-215 | the packages of the labels that are kept, each the package sampled for its label, ordered by label position; a permutation of the non-null samples, one package per listing of a label |
| Packages.FilterTriples | reverse_engineering/api.js:130-132 | keeps the triples whose start and end are both sampled labels, each as often as it was discovered, and drops every other; the kept triples stay in their original order |
| Packages.StartFilterRedundant | reverse_engineering/api.js:126-132 | discovery only starts from the labels it is given, so only the test on `end` can remove a triple |
| Packages.SampleRelationship | reverse_engineering/api.js:233-256 | the package carries the triple's ends and edge label, the normalised rows of the sampled edges as its documents, `getSchema` of the `E` rows as its schema, and `getTemplate` of its documents as its template exactly in field-inference mode |
| Packages.GetRelationshipData | reverse_engineering/api.js:232-258 | one package per triple, in order, none suppressed, each the package sampled for its triple (its documents, schema and template as `SampleRelationship` states) |
| Packages.SampleRelationships | reverse_engineering/api.js:126-141 | every relationship package joins two labels that were kept; there is exactly one package per discovered triple whose ends were both kept, in discovery order, each the package sampled for that triple |
| Packages.StampLabels | reverse_engineering/api.js:125 | `{ ...pack, bucketInfo }`: every label package, in order, with only `bucketInfo` replaced |
| Packages.StampRelationships | reverse_engineering/api.js:143 | `{ ...pack, bucketInfo }`: every relationship package, in order, with only `bucketInfo` replaced |
| Packages.SampleDatabase | reverse_engineering/api.js:109-144 | the label packages are `getNodesData`'s packages and the relationship packages those sampled among the kept labels, in order, each stamped with `bucketInfo`; every label package belongs to a requested label of this database; every relationship joins two labels that have a package |
| Packages.Flatten | reverse_engineering/api.js:146 | `[].concat.apply([], groups)` holds exactly the members of the groups, and one group flattens to itself |
| Packages.FlattenAppend | reverse_engineering/api.js:146 | flattening `a + b` gives the flattening of `a` followed by that of `b`; with the one-group case this pins the concatenation's order and multiplicity |
| Packages.GetDbCollectionsData | reverse_engineering/api.js:88-151 | one label-package group per database, the group of the `i`-th database in position `i`, holding exactly the label packages sampled for that database's selected labels; the relationships are all relationship packages of all databases, concatenated in database order; every relationship joins two labels packaged for its own database |
| Errors.PrepareError | reverse_engineering/api.js:293-298 | an error is reported as exactly its message and stack; `mapError` (forward_engineering/api.js:80-85) has the same body |
| Seqs.FilterCount | reverse_engineering/api.js:130-132 | `filter` keeps every copy of an element that passes the test and no copy of one that fails it |
| Seqs.FilterPartition | forward_engineering/applyToInstanceHelper.js:26 | lodash `_.partition`: the two groups together hold exactly the input's elements |
| Seqs.FilterIsSubseq | forward_engineering/applyToInstanceHelper.js:26 | each group of the partition is a subsequence of the input |
| Script.GenerateContainerScript | forward_engineering/api.js:11-25 | two empty blocks give `""`; only a vertex block gives that block; a non-empty edge block is always preceded by `"\n\n"`, even after an empty vertex block |
| Script.GenerateContainerScriptFixed | forward_engineering/api.js:19-25 | the delimiter appears only between two non-empty blocks |
| Script.Split | forward_engineering/applyToInstanceHelper.js:25 | `split("\n\n")` gives one more piece than there are delimiters found scanning left to right, and no piece contains a blank line |
| Script.JoinSplit | forward_engineering/applyToInstanceHelper.js:25 | joining the pieces with the delimiter gives the script back |
| Script.SplitAfterPiece | forward_engineering/applyToInstanceHelper.js:25 | a piece without a blank line or a trailing newline is cut off whole at the delimiter after it |
| Script.SplitJoin | forward_engineering/applyToInstanceHelper.js:25 | splitting the join of well-formed pieces gives the pieces back |
| Script.NormalizeStatement | forward_engineering/applyToInstanceHelper.js:25 | `replace(/\.\s+/g, '.')`: afterwards no period is followed by white space |
| Script.NormalizeClean | forward_engineering/applyToInstanceHelper.js:25 | a statement with no period followed by white space is unchanged |
| Script.NormalizeIdempotent | forward_engineering/applyToInstanceHelper.js:25 | normalising twice is normalising once |
| Script.NormalizeIsSubseq | forward_engineering/applyToInstanceHelper.js:25 | normalising only deletes characters |
| Script.NormalizeKeepsVisible | forward_engineering/applyToInstanceHelper.js:25 | every character that is not white space survives normalisation, in order |
| Script.Statements | forward_engineering/applyToInstanceHelper.js:25 | one normalised statement per delimiter plus one, none with a period followed by white space |
| Script.ParseScriptStatements | forward_engineering/applyToInstanceHelper.js:24-29 | the statement count is the delimiter count plus one; every vertex statement starts with `g.addV` and no edge statement does; the groups together are a permutation of the statements, each in script order |
| Script.RoundTrip | forward_engineering/applyToInstanceHelper.js:25-26 | assembling clean vertex and edge statements with the delimiter only between two non-empty blocks (`Script.GenerateContainerScriptFixed`) and parsing the script gives back exactly those statements, in those groups |
| Script.RoundTripAsWritten | forward_engineering/api.js:19-25 | with at least one vertex statement the script as written (`Script.GenerateContainerScript`) round-trips the same way |
| Script.TrailingNewlineBreaksRoundTrip | forward_engineering/applyToInstanceHelper.js:25 | a vertex statement ending in a newline loses it, and the edge statement after it gains a leading newline |
| Script.EmptyVerticesAddEmptyEdge | forward_engineering/api.js:19-25 | with an empty vertex block the parsed script gains an empty edge statement in front of the real ones |
| Script.FixedEmptyVertices | forward_engineering/api.js:19-25 | with the fixed assembly an empty vertex block adds no statement |
| Apply.RunGremlinQueries | forward_engineering/applyToInstanceHelper.js:16-22 | every statement is submitted exactly once, in order, and nothing else; the batch fails exactly when some statement fails |
| Apply.SubmitInPhases | forward_engineering/api.js:52-61 | edge statements are submitted only after every vertex statement succeeded; the run succeeds exactly when every statement does; a failure is the mapped error of a submitted statement |
| Apply.VerticesFirst | forward_engineering/api.js:55-61 | in the trace the edge statements are exactly the positions after the vertex statements |
| Apply.ApplyToInstance | forward_engineering/api.js:35-68 | a missing or empty script gives "There is no script to apply" and no submission; otherwise at least one statement is submitted, vertices before edges, and errors are reported as message and stack |
| Apply.ApplyToInstanceAsWritten | forward_engineering/api.js:38-40 | as written, every non-empty script fails with "_.partition is not a function" and nothing is submitted |

## Left out

- Connection handling is not modelled: reverse_engineering/connectionHelper.js, reverse_engineering/neptuneHelper.js and shared/awsNeptuneClient.js. This covers the SSH tunnel, the WebSocket clients, the AWS SDK and the connection singletons. It also covers `getGremlinClient` and `testConnection`. `Apply.ApplyToInstance` takes a connected client as given. As written, the forward-engineering `getGremlinClient` passes the helper's `aws` parameter to `neptuneHelper.connect` (forward_engineering/applyToInstanceHelper.js:6), but the caller never supplies it (forward_engineering/api.js:38). It then calls `connectionHelper.connect` without an `sshService` (applyToInstanceHelper.js:8). So fixing `_` alone need not make apply work unless a connection is already cached.
- `getDbCollectionsNames` is left out. It only submits the `Labels` query and wraps the answer. The query text is `Queries.Text(Labels)`.
- Results come from the `Gateway`, which stands for the network:
  - the first result of a count query;
  - the rows of a `valueMap` query;
  - the GraphSON rows;
  - the `(edge, end)` pairs, which the server deduplicates.

  The relationship count arrives as a one-element array. JavaScript coerces it to its number when it is multiplied, so the model takes the number.
- The GraphSON-to-JSON-Schema converter is not part of this model. It is the `convert` parameter, which gives each row's `properties`.
- The vertex and edge script generators (`gremlinHelper`) are not part of this model. Their output is a string parameter.
- Logging, progress callbacks, `cb` plumbing and `JSON.parse` of the forward-engineering input are left out.
- Plain objects are `JsValue.Obj` over a `map`, which has no key order. JavaScript lists an object's own keys with integer-like keys first, then the others in insertion order. So the model does not state property order in the normalised documents (reverse_engineering/queryHelper.js:83-89, :93-105), in the schema's `properties` (reverse_engineering/api.js:305-310) or in the template (api.js:173-179). It states only which keys are present and what each holds.
- Numbers are integers. `Math.ceil` on a float, `Number()` coercion, `NaN` and fractional percentages are not modelled.
- Concurrency is not modelled. `async.map` and `Promise.all` are sequential maps in input order.
- Query and connection failures are not modelled: every `Gateway` function is total. In the source a single failed query rejects `getDbCollectionsData` for every database (reverse_engineering/api.js:109, :147-149).
- Packages.GetDbCollectionsData: puts the group of the `i`-th database in position `i`. The source pushes each database's label group (reverse_engineering/api.js:125) and relationship group (:143) when that database's work completes, so with concurrent databases the groups arrive in completion order. The model fixes one schedule, in database order; under any other schedule the same groups arrive permuted.
- Apply.RunGremlinQueries: `Promise.all` rejects with the first failure *in time*. The model reports the first failing statement in script order.
- Template.MergeValue: when an object source meets a destination array or Map, lodash merges the source's keys into that array or Map in place, as extra named properties. The model cannot hold an array or Map with named properties, so it yields a plain object with the source's keys alone. This case can arise: array values survive normalisation, also inside converted Maps (reverse_engineering/queryHelper.js:88, :100), so a key can hold an array in one document and an object in a later one.
- Template.MergeDocument: a document that is not a plain object is taken to add nothing. lodash would merge an array document's indices as keys. Every document comes from `getItemProperties` and is a plain object.
- Script.RoundTrip: needs statements that are not empty, contain no blank line, do not end in a newline, and have no period followed by white space. `Script.TrailingNewlineBreaksRoundTrip` shows why the newline condition is needed.

## Findings

| source | as written | input that shows it | evidently intended | confidence | as-written member | corrected member |
|---|---|---|---|---|---|---|
| forward_engineering/api.js:38-40 | The helper is created as `applyToInstanceHelper({ sshService })`, whose first parameter is `_` (forward_engineering/applyToInstanceHelper.js:4). `_.partition` (applyToInstanceHelper.js:26) is then `undefined` and throws `TypeError` | any non-empty script, e.g. `g.addV('A')` | `_` is lodash, and the statements are partitioned by the `g.addV` prefix and submitted | high; not executed | Apply.ApplyToInstanceAsWritten | Apply.ApplyToInstance |
| forward_engineering/api.js:19-25 | `'\n\n' + edgesScript` is appended even when the vertex script is empty | vertex block `""`, edge block `g.V('a').addE('R')`: parsing the script yields the extra edge statement `""` | the delimiter only between two non-empty blocks | medium (whether the generators can return an empty vertex block with a non-empty edge block is outside this model); not executed | Script.EmptyVerticesAddEmptyEdge | Script.GenerateContainerScriptFixed |

=== FILE: apply.dfy ===
/** Applying a script to a Neptune instance (forward_engineering/api.js
    `applyToInstance`, forward_engineering/applyToInstanceHelper.js
    `runGremlinQueries`). Submissions are recorded in a trace; the server's
    answer to each statement is the `reply` parameter, `None` for success. */
module Apply {
  import opened Wrappers
  import opened Errors
  import opened Script

  const NoScriptMessage: string := "There is no script to apply"

  /** What lodash-less `_.partition(...)` throws. */
  const PartitionNotAFunction: string := "_.partition is not a function"

  /** Every statement of `queries` is accepted by the server. */
  predicate Succeeds(queries: seq<string>, reply: string -> Option<JsError>)
  {
    forall i :: 0 <= i < |queries| ==> reply(queries[i]).None?
  }

  /** `runGremlinQueries`: every statement is submitted, one submission each,
      and the batch fails when any statement fails; the failure reported is
      that of the first failing statement. */
  method RunGremlinQueries(trace: seq<string>, queries: seq<string>, reply: string -> Option<JsError>)
    returns (submitted: seq<string>, failure: Option<JsError>)
    ensures submitted == trace + queries
    ensures failure.None? <==> Succeeds(queries, reply)
    ensures failure.Some? ==>
      exists i :: 0 <= i < |queries| && reply(queries[i]) == failure && Succeeds(queries[..i], reply)
  {
    submitted := trace;
    failure := None;
    var k := 0;
    while k < |queries|
      invariant 0 <= k <= |queries|
      invariant submitted == trace + queries[..k]
      invariant failure.None? <==> Succeeds(queries[..k], reply)
      invariant failure.Some? ==>
        exists i :: 0 <= i < k && reply(queries[i]) == failure && Succeeds(queries[..i], reply)
    {
      if failure.None? && reply(queries[k]).Some? {
        failure := reply(queries[k]);
        assert queries[..k + 1][..k] == queries[..k];
      }
      assert queries[..k + 1] == queries[..k] + [queries[k]];
      submitted := submitted + [queries[k]];
      k := k + 1;
    }
    assert queries[..k] == queries;
  }

  /** The two phases of `applyToInstance`: all vertex statements, then,
      only when they all succeed, all edge statements. */
  method SubmitInPhases(labels: seq<string>, edges: seq<string>, reply: string -> Option<JsError>)
    returns (trace: seq<string>, error: Option<ErrorReport>)
    ensures Succeeds(labels, reply) ==> trace == labels + edges
    ensures !Succeeds(labels, reply) ==> trace == labels
    ensures error.None? <==> Succeeds(labels + edges, reply)
    ensures error.Some? ==>
      exists i :: 0 <= i < |trace| && reply(trace[i]).Some? && error == Some(PrepareError(reply(trace[i]).value))
  {
    var failure;
    trace, failure := RunGremlinQueries([], labels, reply);
    if failure.Some? {
      assert !Succeeds(labels + edges, reply) by {
        var i :| 0 <= i < |labels| && reply(labels[i]) == failure;
        assert (labels + edges)[i] == labels[i];
      }
      return trace, Some(PrepareError(failure.value));
    }
    trace, failure := RunGremlinQueries(trace, edges, reply);
    if failure.Some? {
      var i :| 0 <= i < |edges| && reply(edges[i]) == failure && Succeeds(edges[..i], reply);
      assert trace[|labels| + i] == edges[i];
      assert (labels + edges)[|labels| + i] == edges[i];
      return trace, Some(PrepareError(failure.value));
    }
    assert Succeeds(labels + edges, reply) by {
      forall i | 0 <= i < |labels + edges|
        ensures reply((labels + edges)[i]).None?
      {
        if i >= |labels| {
          assert (labels + edges)[i] == edges[i - |labels|];
        }
      }
    }
    error := None;
  }

  /** Vertex statements followed by edge statements: the edge statements
      are exactly the positions after the vertex block, so no vertex
      statement comes after an edge statement. */
  lemma VerticesFirst(labels: seq<string>, edges: seq<string>, trace: seq<string>)
    requires forall s :: s in labels ==> IsVertexStatement(s)
    requires forall s :: s in edges ==> IsEdgeStatement(s)
    requires trace == labels || trace == labels + edges
    ensures forall i :: 0 <= i < |trace| ==> (IsEdgeStatement(trace[i]) <==> i >= |labels|)
    ensures forall i, j :: 0 <= i < j < |trace| && IsEdgeStatement(trace[i]) ==> IsEdgeStatement(trace[j])
  {
    forall i | 0 <= i < |trace|
      ensures IsEdgeStatement(trace[i]) <==> i >= |labels|
    {
      if i < |labels| {
        assert trace[i] == labels[i];
        assert labels[i] in labels;
      } else {
        assert trace[i] == edges[i - |labels|];
        assert edges[i - |labels|] in edges;
      }
    }
  }

  /** `applyToInstance`: reject a missing or empty script; otherwise route
      its statements and submit them in two phases. A failure is reported
      through `mapError`. */
  method ApplyToInstance(script: Option<string>, reply: string -> Option<JsError>)
    returns (trace: seq<string>, error: Option<ErrorReport>)
    ensures script.None? || script.value == "" ==>
      trace == [] && error == Some(ErrorReport(NoScriptMessage, None))
    ensures script.Some? && script.value != "" ==>
      var routed := ParseScriptStatements(script.value);
      && (Succeeds(routed.labels, reply) ==> trace == routed.labels + routed.edges)
      && (!Succeeds(routed.labels, reply) ==> trace == routed.labels)
      && (error.None? <==> Succeeds(routed.labels + routed.edges, reply))
    ensures script.Some? && script.value != "" ==> |trace| > 0
    ensures error.Some? && script.Some? && script.value != "" ==>
      exists i :: 0 <= i < |trace| && reply(trace[i]).Some? && error == Some(PrepareError(reply(trace[i]).value))
    ensures forall i, j :: 0 <= i < j < |trace| && IsEdgeStatement(trace[i]) ==> IsEdgeStatement(trace[j])
  {
    if script.None? || script.value == "" {
      return [], Some(ErrorReport(NoScriptMessage, None));
    }
    var routed := ParseScriptStatements(script.value);
    trace, error := SubmitInPhases(routed.labels, routed.edges, reply);
    VerticesFirst(routed.labels, routed.edges, trace);
  }

  /** `applyToInstance` as written. The helper is created as
      `applyToInstanceHelper({ sshService })`, so inside it `_` is that object
      and `_.partition` is `undefined`: every non-empty script fails with a
      `TypeError` before a single statement is submitted. `stack` is the
      error's stack text. */
  method ApplyToInstanceAsWritten(script: Option<string>, reply: string -> Option<JsError>, stack: string)
    returns (trace: seq<string>, error: Option<ErrorReport>)
    ensures script.None? || script.value == "" ==>
      trace == [] && error == Some(ErrorReport(NoScriptMessage, None))
    ensures script.Some? && script.value != "" ==>
      trace == [] && error == Some(ErrorReport(PartitionNotAFunction, Some(stack)))
  {
    if script.None? || script.value == "" {
      return [], Some(ErrorReport(NoScriptMessage, None));
    }
    var thrown := JsError("TypeError", PartitionNotAFunction, stack, None);
    return [], Some(PrepareError(thrown));
  }
}

=== FILE: decimal.dfy ===
/** Decimal rendering of integers, as a JavaScript template literal renders a
    number (`${limit}`), and its inverse. */
module Decimal {

  function DigitChar(d: nat): (c: char)
    requires d < 10
  {
    "0123456789"[d]
  }

  predicate IsDigit(c: char)
  {
    '0' <= c <= '9'
  }

  predicate AllDigits(s: string)
  {
    forall i :: 0 <= i < |s| ==> IsDigit(s[i])
  }

  /** The value of a string of decimal digits, read left to right. */
  function DigitsValue(s: string): nat
    requires AllDigits(s)
  {
    if |s| == 0 then 0
    else
      assert IsDigit(s[|s| - 1]);
      DigitsValue(s[..|s| - 1]) * 10 + (s[|s| - 1] as int - '0' as int)
  }

  function NatToString(n: nat): (r: string)
    ensures |r| > 0 && AllDigits(r)
    ensures r[0] == '0' ==> n == 0
  {
    if n < 10 then [DigitChar(n)]
    else NatToString(n / 10) + [DigitChar(n % 10)]
  }

  /** Reading the rendered digits back gives the number. */
  lemma {:induction false} NatToStringRoundTrip(n: nat)
    ensures DigitsValue(NatToString(n)) == n
  {
    var r := NatToString(n);
    if n >= 10 {
      NatToStringRoundTrip(n / 10);
      assert r[..|r| - 1] == NatToString(n / 10);
    }
  }

  /** `String(n)` for an integer: a minus sign when negative, then the digits
      of the magnitude. */
  function IntToString(n: int): (r: string)
    ensures |r| > 0
    ensures n >= 0 ==> AllDigits(r) && DigitsValue(r) == n
    ensures n < 0 ==> r[0] == '-' && AllDigits(r[1..]) && DigitsValue(r[1..]) == -n
  {
    if n < 0 then
      NatToStringRoundTrip(-n);
      assert ("-" + NatToString(-n))[1..] == NatToString(-n);
      "-" + NatToString(-n)
    else
      NatToStringRoundTrip(n);
      NatToString(n)
  }
}

=== FILE: errors.dfy ===
/** Errors caught at the entry points and the shape they are reported in
    (reverse_engineering/api.js `prepareError`, forward_engineering/api.js
    `mapError`, which have the same body). */
module Errors {
  import opened Wrappers

  /** A thrown JavaScript error; `name` and `code` stand for the properties
      the report does not carry. */
  datatype JsError = JsError(name: string, message: string, stack: string, code: Option<string>)

  /** What the host callback receives. The empty-script rejection carries no
      stack. */
  datatype ErrorReport = ErrorReport(message: string, stack: Option<string>)

  /** `{ message: error.message, stack: error.stack }`: exactly the message and
      the stack, nothing else of the error. */
  function PrepareError(error: JsError): (r: ErrorReport)
    ensures r.message == error.message && r.stack == Some(error.stack)
  {
    ErrorReport(error.message, Some(error.stack))
  }
}

=== FILE: js_value.dfy ===
/** The shapes of JavaScript values that flow through the reverse-engineering
    path: Gremlin result rows (ES `Map`s whose keys are strings or `T` tokens),
    the plain objects they are turned into, arrays, and scalars. */
module JsValue {

  /** Scalars. Numbers are modelled as integers; floating point is not. */
  datatype Prim = Null | Bool(b: bool) | Num(n: int) | Text(s: string)

  /** A key of an ES `Map` returned by Gremlin: either a string property name
      or a traversal token such as `T.id` / `T.label`. */
  datatype Key = Str(s: string) | Token(name: string)

  datatype Value =
    | Undefined
    | Scalar(p: Prim)
    | List(items: seq<Value>)
    /** An ES `Map`, entries in insertion order (what `Array.from(map)` yields). */
    | GMap(entries: seq<(Key, Value)>)
    /** A plain JavaScript object. */
    | Obj(fields: map<string, Value>)

  /** The string a key becomes when it is used as an object property name:
      strings stay as they are, a token turns into its element name (the
      token's `toString`). */
  function PropertyName(k: Key): string
  {
    match k
    case Str(s) => s
    case Token(name) => name
  }

  /** lodash `_.isEmpty`: no own enumerable keys for objects, length zero for
      arrays and strings, size zero for maps, and always true for `undefined`,
      `null`, booleans and numbers. */
  predicate IsEmpty(v: Value)
  {
    match v
    case Undefined => true
    case Scalar(p) => (p.Text? ==> |p.s| == 0)
    case List(items) => |items| == 0
    case GMap(entries) => |entries| == 0
    case Obj(fields) => |fields| == 0
  }
}

=== FILE: normalize.dfy ===
/** Turning Gremlin `valueMap` rows into plain property objects
    (reverse_engineering/queryHelper.js, `handleMap` and `getItemProperties`).
    Both are left folds over the entries of an ES `Map`, assigning one
    property per entry, so a later entry overwrites an earlier one that lands
    on the same property name. */
module Normalize {
  import opened JsValue

  /** Entry `i` is the last of the first `n` entries with its key. */
  ghost predicate LastKeyAt(entries: seq<(Key, Value)>, n: nat, i: nat)
    requires i < n <= |entries|
  {
    forall j :: i < j < n ==> entries[j].0 != entries[i].0
  }

  /** Entry `i` is the last of the first `n` entries landing on its property
      name (a token and a string can land on the same name). */
  ghost predicate LastNameAt(entries: seq<(Key, Value)>, n: nat, i: nat)
    requires i < n <= |entries|
  {
    forall j :: i < j < n ==> PropertyName(entries[j].0) != PropertyName(entries[i].0)
  }

  /** `handleMap` applied to the first `n` entries of the map `m`. */
  function HandleMapUpTo(m: Value, n: nat): (r: map<string, Value>)
    requires m.GMap? && n <= |m.entries|
    decreases m, n
    ensures r.Keys == set i | 0 <= i < n :: PropertyName(m.entries[i].0)
  {
    if n == 0 then map[]
    else
      HandleMapUpTo(m, n - 1)[PropertyName(m.entries[n - 1].0) := ConvertedAt(m, n - 1)]
  }

  /** What `handleMap` stores for entry `i` of the map `m`: nested maps are
      converted, every other value is kept. */
  function ConvertedAt(m: Value, i: nat): (v: Value)
    requires m.GMap? && i < |m.entries|
    decreases m, 0
    ensures !m.entries[i].1.GMap? ==> v == m.entries[i].1
    ensures m.entries[i].1.GMap? ==> v.Obj? && v.fields.Keys == set j | 0 <= j < |m.entries[i].1.entries| :: PropertyName(m.entries[i].1.entries[j].0)
  {
    var value := m.entries[i].1;
    if value.GMap? then Obj(HandleMapUpTo(value, |value.entries|)) else value
  }

  /** The property written last for a name holds the last entry's value,
      converted when it is itself a map. */
  lemma {:induction false} HandleMapValueAt(m: Value, n: nat, i: nat)
    requires m.GMap? && i < n <= |m.entries| && LastNameAt(m.entries, n, i)
    ensures HandleMapUpTo(m, n)[PropertyName(m.entries[i].0)] == ConvertedAt(m, i)
  {
    var acc := HandleMapUpTo(m, n - 1);
    assert HandleMapUpTo(m, n) == acc[PropertyName(m.entries[n - 1].0) := ConvertedAt(m, n - 1)];
    if i < n - 1 {
      assert PropertyName(m.entries[n - 1].0) != PropertyName(m.entries[i].0);
      assert LastNameAt(m.entries, n - 1, i);
      HandleMapValueAt(m, n - 1, i);
    }
  }

  /** `handleMap`: a nested ES `Map` as a plain object. Every key is kept,
      nested maps are converted recursively, every other value (arrays
      included) is kept as it is. */
  function HandleMap(entries: seq<(Key, Value)>): (r: map<string, Value>)
    decreases GMap(entries)
    ensures forall i :: 0 <= i < |entries| ==> PropertyName(entries[i].0) in r
    ensures forall k :: k in r ==> exists i :: 0 <= i < |entries| && PropertyName(entries[i].0) == k
    ensures forall i :: 0 <= i < |entries| && LastNameAt(entries, |entries|, i) && !entries[i].1.GMap? ==>
      r[PropertyName(entries[i].0)] == entries[i].1
    ensures forall i :: 0 <= i < |entries| && LastNameAt(entries, |entries|, i) && entries[i].1.GMap? ==>
      r[PropertyName(entries[i].0)] == Obj(HandleMap(entries[i].1.entries))
  {
    var m := GMap(entries);
    assert forall i :: 0 <= i < |entries| && LastNameAt(entries, |entries|, i) ==>
      HandleMapUpTo(m, |entries|)[PropertyName(entries[i].0)] == ConvertedAt(m, i)
    by {
      forall i | 0 <= i < |entries| && LastNameAt(entries, |entries|, i) {
        HandleMapValueAt(m, |entries|, i);
      }
    }
    HandleMapUpTo(m, |entries|)
  }

  /** The value stored for one row entry: an array stands for its first
      element (`undefined` when empty), and a map found there is converted by
      `handleMap`. */
  function EntryValue(raw: Value): (r: Value)
    ensures !r.GMap?
    ensures raw.List? && |raw.items| == 0 ==> r == Undefined
    ensures raw.List? && |raw.items| > 0 && !raw.items[0].GMap? ==> r == raw.items[0]
    ensures raw.List? && |raw.items| > 0 && raw.items[0].GMap? ==> r == Obj(HandleMap(raw.items[0].entries))
    ensures raw.GMap? ==> r == Obj(HandleMap(raw.entries))
    ensures !raw.List? && !raw.GMap? ==> r == raw
  {
    var value := if raw.List? then (if |raw.items| == 0 then Undefined else raw.items[0]) else raw;
    if value.GMap? then Obj(HandleMap(value.entries)) else value
  }

  /** `getItemProperties` over the first `n` entries of a row. */
  function ItemPropertiesUpTo(row: seq<(Key, Value)>, n: nat): (r: map<string, Value>)
    requires n <= |row|
    ensures forall i :: 0 <= i < n && row[i].0.Str? ==> row[i].0.s in r
    ensures forall k :: k in r ==> exists i :: 0 <= i < n && row[i].0.Str? && row[i].0.s == k
    ensures forall i :: 0 <= i < n && row[i].0.Str? && LastKeyAt(row, n, i) ==>
      r[row[i].0.s] == EntryValue(row[i].1)
    ensures forall k :: k in r ==> !r[k].GMap?
  {
    if n == 0 then map[]
    else
      var acc := ItemPropertiesUpTo(row, n - 1);
      var (key, rawValue) := row[n - 1];
      var r := if !key.Str? then acc else acc[key.s := EntryValue(rawValue)];
      ItemPropertiesStep(row, n, acc, r);
      r
  }

  /** Folding entry `n - 1` into the object for the first `n - 1` entries:
      the value of each entry that is last for its key is the one kept. */
  lemma ItemPropertiesStep(row: seq<(Key, Value)>, n: nat, acc: map<string, Value>, r: map<string, Value>)
    requires 0 < n <= |row|
    requires forall i :: 0 <= i < n - 1 && row[i].0.Str? ==> row[i].0.s in acc
    requires forall i :: 0 <= i < n - 1 && row[i].0.Str? && LastKeyAt(row, n - 1, i) ==>
      acc[row[i].0.s] == EntryValue(row[i].1)
    requires r == if !row[n - 1].0.Str? then acc else acc[row[n - 1].0.s := EntryValue(row[n - 1].1)]
    ensures forall i :: 0 <= i < n && row[i].0.Str? && LastKeyAt(row, n, i) ==>
      row[i].0.s in r && r[row[i].0.s] == EntryValue(row[i].1)
  {
    forall i | 0 <= i < n && row[i].0.Str? && LastKeyAt(row, n, i)
      ensures row[i].0.s in r && r[row[i].0.s] == EntryValue(row[i].1)
    {
      if i < n - 1 {
        assert LastKeyAt(row, n - 1, i);
        assert row[i].0.s in acc;
        assert row[n - 1].0 != row[i].0;
      }
    }
  }

  /** `getItemProperties`: one `valueMap` row as a flat property object.
      Keys that are not strings (the `T.id` / `T.label` tokens) are dropped. */
  function GetItemProperties(row: seq<(Key, Value)>): (r: map<string, Value>)
    ensures forall i :: 0 <= i < |row| && row[i].0.Str? ==> row[i].0.s in r
    ensures forall k :: k in r ==> exists i :: 0 <= i < |row| && row[i].0.Str? && row[i].0.s == k
    ensures forall i :: 0 <= i < |row| && row[i].0.Str? && LastKeyAt(row, |row|, i) ==>
      && (row[i].1.List? && |row[i].1.items| == 0 ==> r[row[i].0.s] == Undefined)
      && (row[i].1.List? && |row[i].1.items| > 0 && !row[i].1.items[0].GMap? ==>
            r[row[i].0.s] == row[i].1.items[0])
      && (row[i].1.List? && |row[i].1.items| > 0 && row[i].1.items[0].GMap? ==>
            r[row[i].0.s] == Obj(HandleMap(row[i].1.items[0].entries)))
      && (row[i].1.GMap? ==> r[row[i].0.s] == Obj(HandleMap(row[i].1.entries)))
      && (!row[i].1.List? && !row[i].1.GMap? ==> r[row[i].0.s] == row[i].1)
    ensures forall k :: k in r ==> !r[k].GMap?
  {
    ItemPropertiesUpTo(row, |row|)
  }

  /** A row whose keys are distinct strings and whose values are neither arrays
      nor maps is already flat. */
  ghost predicate FlatRow(row: seq<(Key, Value)>)
  {
    && (forall i :: 0 <= i < |row| ==> row[i].0.Str? && !row[i].1.List? && !row[i].1.GMap?)
    && (forall i, j :: 0 <= i < j < |row| ==> row[i].0 != row[j].0)
  }

  /** Normalising an already-flat row changes nothing: the object holds exactly
      the row's entries. */
  lemma {:induction false} FlatRowUnchanged(row: seq<(Key, Value)>)
    requires FlatRow(row)
    ensures GetItemProperties(row).Keys == set i | 0 <= i < |row| :: row[i].0.s
    ensures forall i :: 0 <= i < |row| ==> GetItemProperties(row)[row[i].0.s] == row[i].1
  {
    var r := GetItemProperties(row);
    forall i | 0 <= i < |row|
      ensures r[row[i].0.s] == row[i].1
    {
      assert LastKeyAt(row, |row|, i);
    }
  }
}

=== FILE: packages.dfy ===
/** Sampling a Neptune cluster into the packages the modelling tool receives
    (reverse_engineering/api.js): one package per vertex label that has data,
    one per discovered relationship, sorted and filtered as the source does.
    The network is the `Gateway` of the `Queries` module. */
module Packages {
  import opened Wrappers
  import opened JsValue
  import opened Seqs
  import StableSort
  import opened Sampling
  import opened Normalize
  import Template
  import opened Schema
  import Queries

  const FieldMode: string := "field"

  /** `fieldInference`; only `active == "field"` matters. */
  datatype FieldInference = FieldInference(active: string)

  /** The `sampling` argument of `getNodesData`. */
  datatype SamplingOptions = SamplingOptions(
    recordSamplingSettings: SamplingSettings,
    fieldInference: FieldInference,
    includeEmptyCollection: bool)

  /** The package of one vertex label. `jsonSchema` is
      `validation.jsonSchema`; `documentTemplate` is absent unless field
      inference is on. */
  datatype LabelPackage = LabelPackage(
    dbName: string,
    collectionName: string,
    documents: Value,
    views: seq<Value>,
    emptyBucket: bool,
    jsonSchema: JsonSchema<Value>,
    bucketInfo: Value,
    documentTemplate: Option<map<string, Value>>)

  /** The package of one relationship `parentCollection -relationshipName->
      childCollection`. */
  datatype RelationshipPackage = RelationshipPackage(
    dbName: string,
    parentCollection: string,
    relationshipName: string,
    childCollection: string,
    documents: Value,
    jsonSchema: JsonSchema<Value>,
    bucketInfo: Value,
    documentTemplate: Option<map<string, Value>>)

  /** `documents.reduce((result, doc) => result && _.isEmpty(doc), true)`. */
  function AllEmpty(documents: seq<Value>): (r: bool)
    ensures r <==> forall i :: 0 <= i < |documents| ==> IsEmpty(documents[i])
  {
    if |documents| == 0 then true
    else
      var n := |documents|;
      assert forall i :: 0 <= i < n - 1 ==> documents[..n - 1][i] == documents[i];
      AllEmpty(documents[..n - 1]) && IsEmpty(documents[n - 1])
  }

  /** `isEmptyLabel`: anything that is not an array counts as empty. */
  function IsEmptyLabel(documents: Value): (r: bool)
    ensures !documents.List? ==> r
    ensures documents.List? ==> (r <==> forall i :: 0 <= i < |documents.items| ==> IsEmpty(documents.items[i]))
  {
    !documents.List? || AllEmpty(documents.items)
  }

  /** The template of a package when field inference is on. */
  function DocumentTemplate(fieldInference: FieldInference, documents: Value): (r: Option<map<string, Value>>)
    ensures r.Some? <==> fieldInference.active == FieldMode
    ensures r.Some? ==> r.value == Template.GetTemplate(documents, [])
  {
    if fieldInference.active == FieldMode then Some(Template.GetTemplate(documents, [])) else None
  }

  /** `getLabelPackage`; `None` stands for the `null` of a suppressed label. */
  function GetLabelPackage(
    includeEmptyCollection: bool, fieldInference: FieldInference, dbName: string,
    labelName: string, documents: Value, schema: JsonSchema<Value>): (r: Option<LabelPackage>)
    ensures r.None? <==> !includeEmptyCollection && IsEmptyLabel(documents)
    ensures r.Some? ==>
      && r.value.dbName == dbName
      && r.value.collectionName == labelName
      && r.value.documents == documents
      && r.value.views == []
      && !r.value.emptyBucket
      && r.value.jsonSchema == schema
      && r.value.bucketInfo == Obj(map[])
      && (r.value.documentTemplate.Some? <==> fieldInference.active == FieldMode)
      && r.value.documentTemplate == DocumentTemplate(fieldInference, documents)
  {
    if includeEmptyCollection || !IsEmptyLabel(documents) then
      Some(LabelPackage(dbName, labelName, documents, [], false, schema, Obj(map[]),
        DocumentTemplate(fieldInference, documents)))
    else None
  }

  /** `_.indexOf`: the first position of `name`, or -1. */
  function IndexOf(labels: seq<string>, name: string): (r: int)
    ensures -1 <= r < |labels|
    ensures r == -1 <==> name !in labels
    ensures r >= 0 ==> labels[r] == name && forall j :: 0 <= j < r ==> labels[j] != name
  {
    if |labels| == 0 then -1
    else if labels[0] == name then 0
    else
      var rest := IndexOf(labels[1..], name);
      if rest == -1 then -1 else rest + 1
  }

  /** The sort key of a package: the position of its label. `_.indexOf` never
      yields `undefined`, so the comparator is always `indexA - indexB`. */
  function PackageKey(labels: seq<string>): LabelPackage -> int
  {
    (p: LabelPackage) => IndexOf(labels, p.collectionName)
  }

  /** `sortPackagesByLabels`: a stable sort by label position; packages whose
      label is not listed (key -1) come first. */
  function SortPackagesByLabels(labels: seq<string>, packages: seq<LabelPackage>): (r: seq<LabelPackage>)
    ensures multiset(r) == multiset(packages)
    ensures forall i, j :: 0 <= i < j < |r| ==>
      IndexOf(labels, r[i].collectionName) <= IndexOf(labels, r[j].collectionName)
    ensures forall i, j :: 0 <= i < j < |r| && r[j].collectionName !in labels ==>
      r[i].collectionName !in labels
    ensures forall k :: StableSort.WithKey(r, PackageKey(labels), k) == StableSort.WithKey(packages, PackageKey(labels), k)
  {
    var r := StableSort.SortBy(packages, PackageKey(labels));
    assert forall k :: StableSort.WithKey(r, PackageKey(labels), k) == StableSort.WithKey(packages, PackageKey(labels), k) by {
      forall k {
        StableSort.SortByStable(packages, PackageKey(labels), k);
      }
    }
    r
  }

  /** Sequences with the same multiset have the same members. */
  lemma SameMembers<T>(a: seq<T>, b: seq<T>)
    requires multiset(a) == multiset(b)
    ensures forall x :: x in a <==> x in b
  {
    assert forall x :: x in a <==> x in multiset(a);
    assert forall x :: x in b <==> x in multiset(b);
  }

  /** The test of `filter(Boolean)` on a package or `null`. */
  predicate IsPresent<T>(o: Option<T>)
  {
    o.Some?
  }

  /** `filter(Boolean)`: the packages that were not suppressed, in order, each
      as many times as it occurs. */
  function Present<T(!new)>(packages: seq<Option<T>>): (r: seq<T>)
    ensures |r| <= |packages|
    ensures forall x :: x in r <==> Some(x) in packages
  {
    if |packages| == 0 then []
    else
      var rest := Present(packages[1..]);
      assert forall x :: Some(x) in packages <==> packages[0] == Some(x) || Some(x) in packages[1..];
      (if packages[0].Some? then [packages[0].value] else []) + rest
  }

  /** Each package is kept as many times as it occurs. */
  lemma {:induction false} PresentCounts<T(!new)>(packages: seq<Option<T>>)
    ensures forall x :: multiset(Present(packages))[x] == multiset(packages)[Some(x)]
  {
    if |packages| > 0 {
      var rest := packages[1..];
      PresentCounts(rest);
      assert packages == [packages[0]] + rest;
      assert multiset(packages) == multiset{packages[0]} + multiset(rest);
      var head: seq<T> := if packages[0].Some? then [packages[0].value] else [];
      assert Present(packages) == head + Present(rest);
      assert multiset(Present(packages)) == multiset(head) + multiset(Present(rest));
    }
  }

  /** The kept packages are the present entries in their original order. */
  lemma {:induction false} PresentInOrder<T(!new)>(packages: seq<Option<T>>)
    ensures |Present(packages)| == |Filter(packages, IsPresent)|
    ensures forall i :: 0 <= i < |Present(packages)| ==> Filter(packages, IsPresent)[i] == Some(Present(packages)[i])
  {
    if |packages| > 0 {
      var rest := packages[1..];
      PresentInOrder(rest);
      var head: seq<T> := if packages[0].Some? then [packages[0].value] else [];
      assert Present(packages) == head + Present(rest);
      if packages[0].Some? {
        assert Filter(packages, IsPresent) == [packages[0]] + Filter(rest, IsPresent);
      } else {
        assert Filter(packages, IsPresent) == Filter(rest, IsPresent);
      }
    }
  }

  /** The sampled rows of a `getNodes`/`getRelationshipData` call, each
      normalised by `getItemProperties`. */
  function Documents(rows: seq<seq<(Key, Value)>>): (r: Value)
    ensures r.List? && |r.items| == |rows|
    ensures forall i :: 0 <= i < |rows| ==> r.items[i] == Obj(GetItemProperties(rows[i]))
  {
    List(seq(|rows|, i requires 0 <= i < |rows| => Obj(GetItemProperties(rows[i]))))
  }

  /** A normalised row is empty exactly when the row has no string key. */
  lemma RowEmptyIff(row: seq<(Key, Value)>)
    ensures IsEmpty(Obj(GetItemProperties(row))) <==> forall j :: 0 <= j < |row| ==> !row[j].0.Str?
  {
    var m := GetItemProperties(row);
    if exists j :: 0 <= j < |row| && row[j].0.Str? {
      var j :| 0 <= j < |row| && row[j].0.Str?;
      assert row[j].0.s in m;
    } else {
      assert m.Keys == {};
    }
  }

  /** The sample size of a label. */
  function LabelSampleSize(labelName: string, settings: SamplingSettings, gateway: Queries.Gateway): int
  {
    SampleDocSize(gateway.count(Queries.NodesCount(labelName)), settings)
  }

  /** The rows sampled for a label. */
  function LabelRows(labelName: string, settings: SamplingSettings, gateway: Queries.Gateway): seq<seq<(Key, Value)>>
  {
    gateway.rows(Queries.Nodes(labelName, Some(LabelSampleSize(labelName, settings, gateway))))
  }

  /** One iteration of `getNodesData`: count, sample, infer the schema, and
      build the package. The GraphSON converter is the `convert` parameter. */
  function SampleLabel(
    labelName: string, sampling: SamplingOptions, dbName: string,
    gateway: Queries.Gateway, convert: Value -> map<string, Value>): (r: Option<LabelPackage>)
    ensures var rows := LabelRows(labelName, sampling.recordSamplingSettings, gateway);
      && (r.None? <==> !sampling.includeEmptyCollection
                       && forall i, j :: 0 <= i < |rows| && 0 <= j < |rows[i]| ==> !rows[i][j].0.Str?)
      && (r.Some? ==>
            && r.value.dbName == dbName
            && r.value.collectionName == labelName
            && r.value.documents == Documents(rows)
            && r.value.jsonSchema.properties.Keys
               == AllNames(gateway.structured(Queries.SchemaRows("V", labelName,
                    Some(LabelSampleSize(labelName, sampling.recordSamplingSettings, gateway)))), convert)
            && r.value.jsonSchema
               == GetSchema(gateway.structured(Queries.SchemaRows("V", labelName,
                    Some(LabelSampleSize(labelName, sampling.recordSamplingSettings, gateway)))), convert)
            && (r.value.documentTemplate.Some? <==> sampling.fieldInference.active == FieldMode)
            && r.value.documentTemplate == DocumentTemplate(sampling.fieldInference, Documents(rows)))
  {
    var limit := LabelSampleSize(labelName, sampling.recordSamplingSettings, gateway);
    var rows := LabelRows(labelName, sampling.recordSamplingSettings, gateway);
    var documents := Documents(rows);
    var schema := GetSchema(gateway.structured(Queries.SchemaRows("V", labelName, Some(limit))), convert);
    assert IsEmptyLabel(documents) <==> forall i, j :: 0 <= i < |rows| && 0 <= j < |rows[i]| ==> !rows[i][j].0.Str? by {
      forall i | 0 <= i < |rows| {
        RowEmptyIff(rows[i]);
      }
    }
    GetLabelPackage(sampling.includeEmptyCollection, sampling.fieldInference, dbName, labelName, documents, schema)
  }

  /** Some package in `packages` belongs to label `name`. */
  ghost predicate HasLabel(packages: seq<LabelPackage>, name: string)
  {
    exists p :: p in packages && p.collectionName == name
  }

  /** The sample of every label, in label order (`async.map` over the
      labels). */
  function Samples(labels: seq<string>, sample: string -> Option<LabelPackage>): (r: seq<Option<LabelPackage>>)
    ensures |r| == |labels|
    ensures forall i :: 0 <= i < |labels| ==> r[i] == sample(labels[i])
  {
    seq(|labels|, i requires 0 <= i < |labels| => sample(labels[i]))
  }

  /** The shape of `getNodesData` for any per-label sampler: sample every
      label, drop the suppressed ones, sort the rest by label position. */
  function KeepAndSort(labels: seq<string>, sample: string -> Option<LabelPackage>): (r: seq<LabelPackage>)
    requires forall l :: l in labels && sample(l).Some? ==> sample(l).value.collectionName == l
    ensures forall p :: p in r ==> p.collectionName in labels && sample(p.collectionName) == Some(p)
    ensures forall i, j :: 0 <= i < j < |r| ==>
      IndexOf(labels, r[i].collectionName) <= IndexOf(labels, r[j].collectionName)
    ensures forall l :: l in labels ==> (sample(l).Some? <==> HasLabel(r, l))
    ensures multiset(r) == multiset(Present(Samples(labels, sample)))
    ensures forall l :: l in labels && sample(l).Some? ==> multiset(r)[sample(l).value] == multiset(labels)[l]
  {
    var sampled := Samples(labels, sample);
    var kept := Present(sampled);
    var r := SortPackagesByLabels(labels, kept);
    SameMembers(r, kept);
    PresentSampled(labels, sample, sampled);
    PresentCounts(sampled);
    forall l | l in labels && sample(l).Some?
      ensures multiset(r)[sample(l).value] == multiset(labels)[l]
    {
      forall i | 0 <= i < |labels|
        ensures sample(labels[i]) == sample(l) <==> labels[i] == l
      {
        assert labels[i] in labels;
      }
      CountCorresponding(labels, sampled, l, sample(l));
    }
    r
  }

  /** Two sequences that agree position by position on where `x` and `y`
      occur hold them equally often. */
  lemma {:induction false} CountCorresponding<A, B>(xs: seq<A>, ys: seq<B>, x: A, y: B)
    requires |xs| == |ys|
    requires forall i :: 0 <= i < |xs| ==> (ys[i] == y <==> xs[i] == x)
    ensures multiset(ys)[y] == multiset(xs)[x]
  {
    if |xs| > 0 {
      CountCorresponding(xs[1..], ys[1..], x, y);
      assert xs == [xs[0]] + xs[1..];
      assert ys == [ys[0]] + ys[1..];
    }
  }

  /** The packages kept from sampling `labels` are exactly the present
      samples. */
  lemma PresentSampled(labels: seq<string>, sample: string -> Option<LabelPackage>, sampled: seq<Option<LabelPackage>>)
    requires forall l :: l in labels && sample(l).Some? ==> sample(l).value.collectionName == l
    requires |sampled| == |labels|
    requires forall i :: 0 <= i < |labels| ==> sampled[i] == sample(labels[i])
    ensures forall p :: p in Present(sampled) ==> p.collectionName in labels && sample(p.collectionName) == Some(p)
    ensures forall l :: l in labels && sample(l).Some? ==> sample(l).value in Present(sampled)
  {
    forall p | p in Present(sampled)
      ensures p.collectionName in labels && sample(p.collectionName) == Some(p)
    {
      var i :| 0 <= i < |sampled| && sampled[i] == Some(p);
      assert labels[i] in labels;
    }
    forall l | l in labels && sample(l).Some?
      ensures sample(l).value in Present(sampled)
    {
      var i :| 0 <= i < |labels| && labels[i] == l;
      assert sampled[i] == Some(sample(l).value);
    }
  }

  /** `SampleLabel` as the per-label function of `getNodesData`. */
  function Sampler(
    sampling: SamplingOptions, dbName: string,
    gateway: Queries.Gateway, convert: Value -> map<string, Value>): string -> Option<LabelPackage>
  {
    (l: string) => SampleLabel(l, sampling, dbName, gateway, convert)
  }

  /** `getNodesData`: the packages of the labels that are kept, sorted by
      label position. Each kept package is the one sampled for its label, and
      occurs once per listing of that label. */
  function GetNodesData(
    labels: seq<string>, sampling: SamplingOptions, dbName: string,
    gateway: Queries.Gateway, convert: Value -> map<string, Value>): (r: seq<LabelPackage>)
    ensures forall p :: p in r ==>
      && p.collectionName in labels
      && p.dbName == dbName
      && SampleLabel(p.collectionName, sampling, dbName, gateway, convert) == Some(p)
    ensures forall i, j :: 0 <= i < j < |r| ==>
      IndexOf(labels, r[i].collectionName) <= IndexOf(labels, r[j].collectionName)
    ensures forall l :: l in labels ==>
      (SampleLabel(l, sampling, dbName, gateway, convert).Some? <==> HasLabel(r, l))
    ensures multiset(r) == multiset(Present(Samples(labels, Sampler(sampling, dbName, gateway, convert))))
    ensures forall l :: l in labels && SampleLabel(l, sampling, dbName, gateway, convert).Some? ==>
      multiset(r)[SampleLabel(l, sampling, dbName, gateway, convert).value] == multiset(labels)[l]
  {
    KeepAndSort(labels, Sampler(sampling, dbName, gateway, convert))
  }

  /** `chain => labels.indexOf(chain.start) !== -1 && labels.indexOf(chain.end) !== -1`. */
  function BothEndsIn(labels: seq<string>): Queries.Triple -> bool
  {
    (t: Queries.Triple) => t.start in labels && t.end in labels
  }

  /** The relationship schema filtered to triples whose ends are both
      sampled labels, in discovery order. */
  function FilterTriples(triples: seq<Queries.Triple>, labels: seq<string>): (r: seq<Queries.Triple>)
    ensures forall t :: t in r <==> t in triples && t.start in labels && t.end in labels
    ensures IsSubseq(r, triples)
    ensures forall t :: multiset(r)[t] == if t.start in labels && t.end in labels then multiset(triples)[t] else 0
  {
    var r := Filter(triples, BothEndsIn(labels));
    assert forall t :: multiset(r)[t] == if t.start in labels && t.end in labels then multiset(triples)[t] else 0 by {
      forall t {
        FilterCount(triples, BothEndsIn(labels), t);
      }
    }
    assert forall t :: t in triples && t.start in labels && t.end in labels ==> t in r by {
      forall t | t in triples && t.start in labels && t.end in labels {
        FilterKeeps(triples, BothEndsIn(labels), t);
      }
    }
    FilterIsSubseq(triples, BothEndsIn(labels));
    r
  }

  /** Discovery only starts from the labels it is given, so the filter's test
      on `start` never removes anything: only the `end` test matters. */
  lemma {:induction false} StartFilterRedundant(labels: seq<string>, getLimit: int -> int, gateway: Queries.Gateway)
    ensures var triples := Queries.GetRelationshipSchema(labels, getLimit, gateway);
      FilterTriples(triples, labels) == Filter(triples, (t: Queries.Triple) => t.end in labels)
  {
    var triples := Queries.GetRelationshipSchema(labels, getLimit, gateway);
    FilterCongruent(triples, BothEndsIn(labels), (t: Queries.Triple) => t.end in labels);
  }

  /** The sample size of a relationship. */
  function RelationshipSampleSize(triple: Queries.Triple, settings: SamplingSettings, gateway: Queries.Gateway): int
  {
    SampleDocSize(gateway.count(Queries.CountRelationships(triple.start, triple.relationship, triple.end)), settings)
  }

  /** One iteration of `getRelationshipData`. A relationship package is never
      suppressed, however empty. */
  function SampleRelationship(
    triple: Queries.Triple, dbName: string, settings: SamplingSettings, fieldInference: FieldInference,
    gateway: Queries.Gateway, convert: Value -> map<string, Value>): (r: RelationshipPackage)
    ensures var count := RelationshipSampleSize(triple, settings, gateway);
      var rows := gateway.rows(Queries.RelationshipData(triple.start, triple.relationship, triple.end, Some(count)));
      && r.dbName == dbName
      && r.parentCollection == triple.start
      && r.relationshipName == triple.relationship
      && r.childCollection == triple.end
      && r.documents == Documents(rows)
      && r.jsonSchema.properties.Keys
         == AllNames(gateway.structured(Queries.SchemaRows("E", triple.relationship, Some(count))), convert)
      && r.jsonSchema == GetSchema(gateway.structured(Queries.SchemaRows("E", triple.relationship, Some(count))), convert)
      && (r.documentTemplate.Some? <==> fieldInference.active == FieldMode)
      && r.documentTemplate == DocumentTemplate(fieldInference, r.documents)
  {
    var count := RelationshipSampleSize(triple, settings, gateway);
    var documents := Documents(gateway.rows(Queries.RelationshipData(triple.start, triple.relationship, triple.end, Some(count))));
    var schema := GetSchema(gateway.structured(Queries.SchemaRows("E", triple.relationship, Some(count))), convert);
    // The source's package has no `bucketInfo` yet; this empty placeholder is
    // always replaced by `StampRelationships`.
    RelationshipPackage(dbName, triple.start, triple.relationship, triple.end, documents, schema, Obj(map[]),
      DocumentTemplate(fieldInference, documents))
  }

  /** `getRelationshipData`: one package per triple, in order. */
  function GetRelationshipData(
    triples: seq<Queries.Triple>, dbName: string, settings: SamplingSettings, fieldInference: FieldInference,
    gateway: Queries.Gateway, convert: Value -> map<string, Value>): (r: seq<RelationshipPackage>)
    ensures |r| == |triples|
    ensures forall i :: 0 <= i < |r| ==>
      r[i].parentCollection == triples[i].start && r[i].relationshipName == triples[i].relationship
      && r[i].childCollection == triples[i].end && r[i].dbName == dbName
    ensures forall i :: 0 <= i < |r| ==>
      r[i] == SampleRelationship(triples[i], dbName, settings, fieldInference, gateway, convert)
  {
    seq(|triples|, i requires 0 <= i < |triples| =>
      SampleRelationship(triples[i], dbName, settings, fieldInference, gateway, convert))
  }

  /** The label names of the kept packages, in package order. */
  function CollectionNames(packages: seq<LabelPackage>): (r: seq<string>)
    ensures |r| == |packages|
    ensures forall i :: 0 <= i < |r| ==> r[i] == packages[i].collectionName
  {
    seq(|packages|, i requires 0 <= i < |packages| => packages[i].collectionName)
  }

  /** `quantity => getSampleDocSize(quantity, recordSamplingSettings)`. */
  function SizeFor(settings: SamplingSettings): int -> int
  {
    (quantity: int) => SampleDocSize(quantity, settings)
  }

  /** The triples discovered from the kept labels whose ends were both kept. */
  function KeptTriples(kept: seq<string>, settings: SamplingSettings, gateway: Queries.Gateway): seq<Queries.Triple>
  {
    FilterTriples(Queries.GetRelationshipSchema(kept, SizeFor(settings), gateway), kept)
  }

  /** Relationship discovery and sampling among the labels that were kept:
      `getRelationshipSchema`, the filter on both ends, then
      `getRelationshipData`. There is one package per discovered triple whose
      ends were both kept, in discovery order. */
  function SampleRelationships(
    kept: seq<string>, dbName: string, sampling: SamplingOptions,
    gateway: Queries.Gateway, convert: Value -> map<string, Value>): (r: seq<RelationshipPackage>)
    ensures forall rel :: rel in r ==>
      rel.dbName == dbName && rel.parentCollection in kept && rel.childCollection in kept
    ensures |r| == |KeptTriples(kept, sampling.recordSamplingSettings, gateway)|
    ensures forall i :: 0 <= i < |r| ==>
      r[i] == SampleRelationship(KeptTriples(kept, sampling.recordSamplingSettings, gateway)[i],
        dbName, sampling.recordSamplingSettings, sampling.fieldInference, gateway, convert)
  {
    var triples := KeptTriples(kept, sampling.recordSamplingSettings, gateway);
    var r := GetRelationshipData(triples, dbName, sampling.recordSamplingSettings, sampling.fieldInference, gateway, convert);
    EndsKept(triples, kept, r);
    r
  }

  /** Packages built one per triple join kept labels when the triples do. */
  lemma EndsKept(triples: seq<Queries.Triple>, kept: seq<string>, rels: seq<RelationshipPackage>)
    requires |rels| == |triples|
    requires forall i :: 0 <= i < |rels| ==>
      rels[i].parentCollection == triples[i].start && rels[i].childCollection == triples[i].end
    requires forall t :: t in triples ==> t.start in kept && t.end in kept
    ensures forall rel :: rel in rels ==> rel.parentCollection in kept && rel.childCollection in kept
  {
    forall rel | rel in rels
      ensures rel.parentCollection in kept && rel.childCollection in kept
    {
      var i :| 0 <= i < |rels| && rels[i] == rel;
      assert triples[i] in triples;
    }
  }

  /** `{ ...pack, bucketInfo }` over label packages. */
  function StampLabels(packages: seq<LabelPackage>, bucketInfo: Value): (r: seq<LabelPackage>)
    ensures |r| == |packages|
    ensures forall i :: 0 <= i < |r| ==> r[i] == packages[i].(bucketInfo := bucketInfo)
  {
    seq(|packages|, i requires 0 <= i < |packages| => packages[i].(bucketInfo := bucketInfo))
  }

  /** `{ ...pack, bucketInfo }` over relationship packages. The same update as
      `StampLabels`, written again because the two package types are distinct
      datatypes with no common supertype. */
  function StampRelationships(packages: seq<RelationshipPackage>, bucketInfo: Value): (r: seq<RelationshipPackage>)
    ensures |r| == |packages|
    ensures forall i :: 0 <= i < |r| ==> r[i] == packages[i].(bucketInfo := bucketInfo)
  {
    seq(|packages|, i requires 0 <= i < |packages| => packages[i].(bucketInfo := bucketInfo))
  }

  /** The packages of one database. */
  datatype DatabasePackages = DatabasePackages(labels: seq<LabelPackage>, relationships: seq<RelationshipPackage>)

  /** The body of the per-database loop of `getDbCollectionsData`: sample the
      labels, discover relationships among the labels that were kept, and
      sample each relationship. `bucketInfo` is stamped on every package. */
  function SampleDatabase(
    dbName: string, labels: seq<string>, sampling: SamplingOptions, bucketInfo: Value,
    gateway: Queries.Gateway, convert: Value -> map<string, Value>): (r: DatabasePackages)
    ensures forall p :: p in r.labels ==> p.collectionName in labels && p.dbName == dbName && p.bucketInfo == bucketInfo
    ensures forall rel :: rel in r.relationships ==>
      && rel.dbName == dbName
      && rel.bucketInfo == bucketInfo
      && HasLabel(r.labels, rel.parentCollection)
      && HasLabel(r.labels, rel.childCollection)
    ensures var nodes := GetNodesData(labels, sampling, dbName, gateway, convert);
      && |r.labels| == |nodes|
      && forall i :: 0 <= i < |nodes| ==> r.labels[i] == nodes[i].(bucketInfo := bucketInfo)
    ensures var rels := SampleRelationships(
        CollectionNames(GetNodesData(labels, sampling, dbName, gateway, convert)), dbName, sampling, gateway, convert);
      && |r.relationships| == |rels|
      && forall i :: 0 <= i < |rels| ==> r.relationships[i] == rels[i].(bucketInfo := bucketInfo)
  {
    var nodes := GetNodesData(labels, sampling, dbName, gateway, convert);
    var kept := CollectionNames(nodes);
    var rels := SampleRelationships(kept, dbName, sampling, gateway, convert);
    StampedLabels(nodes, labels, dbName, bucketInfo);
    StampedRelationships(rels, StampLabels(nodes, bucketInfo), kept, dbName, bucketInfo);
    DatabasePackages(StampLabels(nodes, bucketInfo), StampRelationships(rels, bucketInfo))
  }

  /** Stamping keeps the label, the database, and which labels are present. */
  lemma StampedLabels(nodes: seq<LabelPackage>, labels: seq<string>, dbName: string, bucketInfo: Value)
    requires forall p :: p in nodes ==> p.collectionName in labels && p.dbName == dbName
    ensures forall p :: p in StampLabels(nodes, bucketInfo) ==>
      p.collectionName in labels && p.dbName == dbName && p.bucketInfo == bucketInfo
    ensures forall name :: name in CollectionNames(nodes) ==> HasLabel(StampLabels(nodes, bucketInfo), name)
  {
    var stamped := StampLabels(nodes, bucketInfo);
    forall p | p in stamped
      ensures p.collectionName in labels && p.dbName == dbName && p.bucketInfo == bucketInfo
    {
      var i :| 0 <= i < |stamped| && stamped[i] == p;
      assert nodes[i] in nodes;
    }
    forall name | name in CollectionNames(nodes)
      ensures HasLabel(stamped, name)
    {
      var i :| 0 <= i < |nodes| && CollectionNames(nodes)[i] == name;
      assert stamped[i] in stamped;
    }
  }

  /** Stamped relationships still join labels that have a package. */
  lemma StampedRelationships(
    rels: seq<RelationshipPackage>, stamped: seq<LabelPackage>, kept: seq<string>, dbName: string, bucketInfo: Value)
    requires forall rel :: rel in rels ==>
      rel.dbName == dbName && rel.parentCollection in kept && rel.childCollection in kept
    requires forall name :: name in kept ==> HasLabel(stamped, name)
    ensures forall rel :: rel in StampRelationships(rels, bucketInfo) ==>
      && rel.dbName == dbName
      && rel.bucketInfo == bucketInfo
      && HasLabel(stamped, rel.parentCollection)
      && HasLabel(stamped, rel.childCollection)
  {
    var out := StampRelationships(rels, bucketInfo);
    forall rel | rel in out
      ensures rel.dbName == dbName && rel.bucketInfo == bucketInfo
           && HasLabel(stamped, rel.parentCollection) && HasLabel(stamped, rel.childCollection)
    {
      var i :| 0 <= i < |out| && out[i] == rel;
      assert rels[i] in rels;
    }
  }

  /** What `getDbCollectionsData` hands back: the label packages grouped per
      database, and all relationship packages flattened. */
  datatype CollectionsData = CollectionsData(labels: seq<seq<LabelPackage>>, relationships: seq<RelationshipPackage>)

  /** The labels selected for a database; a database with no entry selects
      none. */
  function SelectedLabels(collections: map<string, seq<string>>, dbName: string): (r: seq<string>)
    ensures dbName in collections ==> r == collections[dbName]
    ensures dbName !in collections ==> r == []
  {
    if dbName in collections then collections[dbName] else []
  }

  /** `[].concat.apply([], groups)`: the groups one after another. */
  function Flatten<T>(groups: seq<seq<T>>): (r: seq<T>)
    ensures forall i, x :: 0 <= i < |groups| && x in groups[i] ==> x in r
    ensures forall x :: x in r ==> exists i :: 0 <= i < |groups| && x in groups[i]
    ensures |groups| == 1 ==> r == groups[0]
  {
    if |groups| == 0 then []
    else
      var rest := Flatten(groups[1..]);
      assert forall i :: 1 <= i < |groups| ==> groups[1..][i - 1] == groups[i];
      groups[0] + rest
  }

  /** Flattening a concatenation of group lists concatenates their
      flattenings: every element is kept, as often as it occurs, in order. */
  lemma {:induction false} FlattenAppend<T>(a: seq<seq<T>>, b: seq<seq<T>>)
    ensures Flatten(a + b) == Flatten(a) + Flatten(b)
  {
    if |a| == 0 {
      assert a + b == b;
    } else {
      assert (a + b)[0] == a[0];
      assert (a + b)[1..] == a[1..] + b;
      FlattenAppend(a[1..], b);
    }
  }

  /** The package group of one selected database. */
  function SelectedDatabase(
    dbName: string, collections: map<string, seq<string>>, sampling: SamplingOptions, bucketInfo: Value,
    gateway: Queries.Gateway, convert: Value -> map<string, Value>): DatabasePackages
  {
    SampleDatabase(dbName, SelectedLabels(collections, dbName), sampling, bucketInfo, gateway, convert)
  }

  /** The relationship packages of every selected database, in database
      order. */
  function RelationshipGroups(
    dbNames: seq<string>, collections: map<string, seq<string>>, sampling: SamplingOptions, bucketInfo: Value,
    gateway: Queries.Gateway, convert: Value -> map<string, Value>): seq<seq<RelationshipPackage>>
  {
    seq(|dbNames|, i requires 0 <= i < |dbNames| =>
      SelectedDatabase(dbNames[i], collections, sampling, bucketInfo, gateway, convert).relationships)
  }

  /** `getDbCollectionsData` over the selected databases: the label packages
      of each database in database order, and the relationship packages of
      all of them. Each relationship joins two labels of its own database. */
  function GetDbCollectionsData(
    dbNames: seq<string>, collections: map<string, seq<string>>, sampling: SamplingOptions, bucketInfo: Value,
    gateway: Queries.Gateway, convert: Value -> map<string, Value>): (r: CollectionsData)
    ensures |r.labels| == |dbNames|
    ensures forall i :: 0 <= i < |dbNames| ==> forall p :: p in r.labels[i] ==>
      p.dbName == dbNames[i] && p.collectionName in SelectedLabels(collections, dbNames[i])
    ensures forall rel :: rel in r.relationships ==>
      exists i :: 0 <= i < |dbNames| && rel.dbName == dbNames[i]
                  && HasLabel(r.labels[i], rel.parentCollection) && HasLabel(r.labels[i], rel.childCollection)
    ensures forall i :: 0 <= i < |dbNames| ==>
      r.labels[i] == SelectedDatabase(dbNames[i], collections, sampling, bucketInfo, gateway, convert).labels
    ensures r.relationships == Flatten(RelationshipGroups(dbNames, collections, sampling, bucketInfo, gateway, convert))
  {
    var dbs := seq(|dbNames|, i requires 0 <= i < |dbNames| =>
      SelectedDatabase(dbNames[i], collections, sampling, bucketInfo, gateway, convert));
    var groups := RelationshipGroups(dbNames, collections, sampling, bucketInfo, gateway, convert);
    var labelGroups := seq(|dbs|, i requires 0 <= i < |dbs| => dbs[i].labels);
    FlattenedRelationshipsSound(dbNames, labelGroups, groups);
    CollectionsData(labelGroups, Flatten(groups))
  }

  /** A relationship of the flattened groups comes from one database's group,
      and so joins two labels packaged for that database. */
  lemma FlattenedRelationshipsSound(
    dbNames: seq<string>, labelGroups: seq<seq<LabelPackage>>, groups: seq<seq<RelationshipPackage>>)
    requires |labelGroups| == |dbNames| == |groups|
    requires forall i :: 0 <= i < |groups| ==> forall rel :: rel in groups[i] ==>
      rel.dbName == dbNames[i] && HasLabel(labelGroups[i], rel.parentCollection) && HasLabel(labelGroups[i], rel.childCollection)
    ensures forall rel :: rel in Flatten(groups) ==>
      exists i :: 0 <= i < |dbNames| && rel.dbName == dbNames[i]
                  && HasLabel(labelGroups[i], rel.parentCollection) && HasLabel(labelGroups[i], rel.childCollection)
  {
    forall rel | rel in Flatten(groups)
      ensures exists i :: 0 <= i < |dbNames| && rel.dbName == dbNames[i]
                          && HasLabel(labelGroups[i], rel.parentCollection) && HasLabel(labelGroups[i], rel.childCollection)
    {
      var i :| 0 <= i < |groups| && rel in groups[i];
    }
  }
}

=== FILE: queries.dfy ===
/** The Gremlin query texts the reverse-engineering path submits, and
    relationship discovery over their results
    (reverse_engineering/queryHelper.js). Labels and limits are spliced into
    fixed texts between single quotes, without escaping. */
module Queries {
  import opened Wrappers
  import opened JsValue
  import Decimal

  /** The queries the reverse-engineering path submits; `Text` gives the
      Gremlin text each one stands for. */
  datatype Query =
    | Labels
    | NodesCount(labelName: string)
    /** `limit` is `None` when the argument is omitted. */
    | Nodes(labelName: string, limit: Option<int>)
    /** `element` is `V` for vertices and `E` for edges. */
    | SchemaRows(element: string, labelName: string, limit: Option<int>)
    | OutEdgesCount(labelName: string)
    | Relationships(labelName: string, edgeLimit: int)
    | CountRelationships(start: string, relationship: string, end: string)
    | RelationshipData(start: string, relationship: string, end: string, limit: Option<int>)

  /** The network: each submitted query gets its result. Query failures and
      the connection itself are not modelled. */
  datatype Gateway = Gateway(
    /** The first result of a count query. */
    count: Query -> int,
    /** The rows of a `valueMap(true)` query, each an ES `Map`. */
    rows: Query -> seq<seq<(Key, Value)>>,
    /** The rows of a query sent to the GraphSON client. */
    structured: Query -> seq<Value>,
    /** The `(edge, end)` label pairs of a relationship discovery query, as
        deduplicated by the server. */
    edgeEnds: Query -> seq<(string, string)>)

  const DefaultLimit: int := 100

  function Quote(s: string): string
  {
    "'" + s + "'"
  }

  /** A limit argument; an omitted one (`None`) takes the default of 100. */
  function LimitText(limit: Option<int>): (r: string)
    ensures '\'' !in r
    ensures limit.None? ==> r == "100"
  {
    var r := Decimal.IntToString(limit.GetOr(DefaultLimit));
    assert forall i :: 0 <= i < |r| ==> r[i] != '\'' by {
      if limit.GetOr(DefaultLimit) < 0 {
        assert forall i :: 1 <= i < |r| ==> r[1..][i - 1] == r[i];
      }
    }
    r
  }

  const VertexPrefix: string := "g.V().hasLabel("
  const EdgePrefix: string := "g.E().hasLabel("
  // The edge queries span several source lines; each constant is written
  // line by line, indentation included.
  const CountWhere: string :=
    ").where(\n" + "\t\t\t\tand(\n" + "\t\t\t\t\toutV().label().is(eq("
  const CountIn: string :=
    ")),\n" + "\t\t\t\t\tinV().label().is(eq("
  const CountTail: string :=
    "))\n" + "\t\t\t\t)\n" + "\t\t\t).count().next()"
  const DataWhere: string :=
    ").where(\n" + "\t\t\t\t\tand(\n" + "\t\t\t\t\t\toutV().label().is(eq("
  const DataIn: string :=
    ")),\n" + "\t\t\t\t\t\tinV().label().is(eq("
  // The relationship discovery query around its label and limit, and the
  // step labels it quotes.
  const DiscoveryLimit: string := ").outE().limit("
  const DiscoveryAs: string := ").as("
  const DiscoveryInV: string := ").inV().as("
  const DiscoverySelect: string := ").select("
  const DiscoveryBy: string := ").by(label).dedup().toList()"
  const EdgeStep: string := "edge"
  const EndStep: string := "end"
  const DataClose: string :=
    "))\n" + "\t\t\t\t\t)\n" + "\t\t\t\t).limit("

  /** The Gremlin text of a query: the labels and limits spliced verbatim
      into the fixed templates. */
  function Text(q: Query): string
  {
    match q
    case Labels => "g.V().label().dedup().toList()"
    case NodesCount(l) => VertexPrefix + Quote(l) + ").count().next()"
    case Nodes(l, limit) => VertexPrefix + Quote(l) + ").limit(" + LimitText(limit) + ").valueMap(true).toList()"
    case SchemaRows(element, l, limit) =>
      "g." + element + "().hasLabel(" + Quote(l) + ").limit(" + LimitText(limit) + ").valueMap()"
    case OutEdgesCount(l) => VertexPrefix + Quote(l) + ").outE().count()"
    case Relationships(l, limit) =>
      VertexPrefix + Quote(l) + DiscoveryLimit + Decimal.IntToString(limit) + DiscoveryAs + Quote(EdgeStep)
        + DiscoveryInV + Quote(EndStep) + DiscoverySelect + Quote(EdgeStep) + ", " + Quote(EndStep) + DiscoveryBy
    case CountRelationships(start, relationship, end) =>
      EdgePrefix + Quote(relationship) + CountWhere + Quote(start) + CountIn + Quote(end) + CountTail
    case RelationshipData(start, relationship, end, limit) =>
      EdgePrefix + Quote(relationship) + DataWhere + Quote(start) + DataIn + Quote(end)
        + DataClose + LimitText(limit) + ").valueMap(true).toList()"
  }

  /** The pieces of `s` between single quotes; a query's quoted literals are
      its odd-numbered pieces. */
  function SplitQuotes(s: string): (r: seq<string>)
    ensures |r| > 0
  {
    if |s| == 0 then [""]
    else if s[0] == '\'' then [""] + SplitQuotes(s[1..])
    else
      var rest := SplitQuotes(s[1..]);
      [[s[0]] + rest[0]] + rest[1..]
  }

  lemma {:induction false} SplitQuotesNone(s: string)
    requires '\'' !in s
    ensures SplitQuotes(s) == [s]
  {
    if |s| > 0 {
      assert '\'' !in s[1..] by {
        assert forall i :: 0 <= i < |s[1..]| ==> s[1..][i] == s[i + 1];
      }
      SplitQuotesNone(s[1..]);
      assert s == [s[0]] + s[1..];
    }
  }

  /** A quote character separates the pieces on its two sides. */
  lemma {:induction false} SplitQuotesAt(a: string, c: string)
    ensures SplitQuotes(a + "'" + c) == SplitQuotes(a) + SplitQuotes(c)
  {
    if |a| == 0 {
      assert a + "'" + c == "'" + c;
      assert ("'" + c)[1..] == c;
    } else {
      assert (a + "'" + c)[1..] == a[1..] + "'" + c;
      SplitQuotesAt(a[1..], c);
    }
  }

  /** A quote-free text spliced between quotes is one literal of the query. */
  lemma SplitQuotesLiteral(before: string, x: string, after: string)
    requires '\'' !in x
    ensures SplitQuotes(before + Quote(x) + after) == SplitQuotes(before) + [x] + SplitQuotes(after)
  {
    assert before + Quote(x) + after == before + "'" + (x + "'" + after);
    SplitQuotesAt(before, x + "'" + after);
    SplitQuotesAt(x, after);
    SplitQuotesNone(x);
  }

  /** Without a quote in the label, the label is the query's one quoted
      literal: it is embedded verbatim. */
  lemma NodesQueryEmbedsLabel(labelName: string, limit: Option<int>)
    requires '\'' !in labelName
    ensures SplitQuotes(Text(Nodes(labelName, limit)))
         == [VertexPrefix, labelName, ").limit(" + LimitText(limit) + ").valueMap(true).toList()"]
  {
    var tail := ").limit(" + LimitText(limit) + ").valueMap(true).toList()";
    FixedTextsQuoteFree();
    OneLiteral(Text(Nodes(labelName, limit)), VertexPrefix, labelName, tail);
  }

  /** A label holding a quote ends the literal early: only the text before the
      quote is quoted, and the text after it becomes query code. */
  lemma NodesCountQueryNotEscaped(before: string, after: string)
    requires '\'' !in before && '\'' !in after
    ensures SplitQuotes(Text(NodesCount(before + "'" + after)))
         == [VertexPrefix, before, after, ").count().next()"]
  {
    var tail := ").count().next()";
    FixedTextsQuoteFree();
    assert Text(NodesCount(before + "'" + after)) == VertexPrefix + Quote(before) + (after + "'" + tail);
    QuoteInsideLiteral(VertexPrefix, before, after, tail);
  }

  lemma QuoteInsideLiteral(c0: string, x: string, y: string, c1: string)
    requires '\'' !in c0 && '\'' !in x && '\'' !in y && '\'' !in c1
    ensures SplitQuotes(c0 + Quote(x) + (y + "'" + c1)) == [c0, x, y, c1]
  {
    SplitQuotesLiteral(c0, x, y + "'" + c1);
    SplitQuotesAt(y, c1);
    SplitQuotesNone(c0);
    SplitQuotesNone(y);
    SplitQuotesNone(c1);
  }

  /** The three labels of an edge-count query are its quoted literals, in the
      order relationship, start, end. */
  lemma CountRelationshipsQueryEmbedsLabels(start: string, relationship: string, end: string)
    requires '\'' !in start && '\'' !in relationship && '\'' !in end
    ensures SplitQuotes(Text(CountRelationships(start, relationship, end)))
         == [EdgePrefix, relationship, CountWhere, start, CountIn, end, CountTail]
  {
    FixedTextsQuoteFree();
    ThreeLiterals(Text(CountRelationships(start, relationship, end)),
      EdgePrefix, relationship, CountWhere, start, CountIn, end, CountTail);
  }

  /** The same for the edge-data query, which also carries the limit. */
  lemma RelationshipDataQueryEmbedsLabels(start: string, relationship: string, end: string, limit: Option<int>)
    requires '\'' !in start && '\'' !in relationship && '\'' !in end
    ensures SplitQuotes(Text(RelationshipData(start, relationship, end, limit)))
         == [EdgePrefix, relationship, DataWhere, start, DataIn, end,
             DataClose + LimitText(limit) + ").valueMap(true).toList()"]
  {
    var tail := DataClose + LimitText(limit) + ").valueMap(true).toList()";
    FixedTextsQuoteFree();
    var q := Text(RelationshipData(start, relationship, end, limit));
    var front := EdgePrefix + Quote(relationship) + DataWhere + Quote(start) + DataIn + Quote(end);
    assert q == front + tail;
    ThreeLiterals(Text(RelationshipData(start, relationship, end, limit)),
      EdgePrefix, relationship, DataWhere, start, DataIn, end, tail);
  }

  /** One quote-free text spliced between quote-free constants is the single
      quoted literal of the result. */
  lemma OneLiteral(q: string, c0: string, x: string, c1: string)
    requires q == c0 + Quote(x) + c1
    requires '\'' !in c0 && '\'' !in c1 && '\'' !in x
    ensures SplitQuotes(q) == [c0, x, c1]
  {
    SplitQuotesLiteral(c0, x, c1);
    SplitQuotesNone(c0);
    SplitQuotesNone(c1);
  }

  /** Three quote-free texts spliced between quote-free constants are the
      odd-numbered pieces of the result. */
  lemma ThreeLiterals(q: string, c0: string, x: string, c1: string, y: string, c2: string, z: string, c3: string)
    requires q == c0 + Quote(x) + c1 + Quote(y) + c2 + Quote(z) + c3
    requires '\'' !in c0 && '\'' !in c1 && '\'' !in c2 && '\'' !in c3
    requires '\'' !in x && '\'' !in y && '\'' !in z
    ensures SplitQuotes(q) == [c0, x, c1, y, c2, z, c3]
  {
    var p1 := c0 + Quote(x) + c1;
    var p2 := p1 + Quote(y) + c2;
    OneLiteral(p1, c0, x, c1);
    SplitQuotesLiteral(p1, y, c2);
    SplitQuotesNone(c2);
    SplitQuotesLiteral(p2, z, c3);
    SplitQuotesNone(c3);
  }

  /** The quoted literals of a query's text, in order: the labels it splices
      in (the edge label before the start and end labels), and for
      relationship discovery the fixed step labels `edge` and `end`. */
  function Literals(q: Query): seq<string>
  {
    match q
    case Labels => []
    case NodesCount(l) => [l]
    case Nodes(l, _) => [l]
    case SchemaRows(_, l, _) => [l]
    case OutEdgesCount(l) => [l]
    case Relationships(l, _) => [l, EdgeStep, EndStep, EdgeStep, EndStep]
    case CountRelationships(start, relationship, end) => [relationship, start, end]
    case RelationshipData(start, relationship, end, _) => [relationship, start, end]
  }

  /** The odd-numbered pieces of a split: the texts that were quoted. */
  function OddPieces(pieces: seq<string>): seq<string>
    decreases |pieces|
  {
    if |pieces| < 2 then [] else [pieces[1]] + OddPieces(pieces[2..])
  }

  /** No label or element name the query splices in holds a quote. */
  predicate QuoteFreeQuery(q: Query)
  {
    match q
    case Labels => true
    case NodesCount(l) => '\'' !in l
    case Nodes(l, _) => '\'' !in l
    case SchemaRows(element, l, _) => '\'' !in element && '\'' !in l
    case OutEdgesCount(l) => '\'' !in l
    case Relationships(l, _) => '\'' !in l
    case CountRelationships(start, relationship, end) => '\'' !in start && '\'' !in relationship && '\'' !in end
    case RelationshipData(start, relationship, end, _) => '\'' !in start && '\'' !in relationship && '\'' !in end
  }

  /** Every query text quotes exactly its labels, in order, and nothing else,
      as long as no label holds a quote. */
  lemma TextQuotesLiterals(q: Query)
    requires QuoteFreeQuery(q)
    ensures OddPieces(SplitQuotes(Text(q))) == Literals(q)
  {
    match q
    case Labels =>
      SplitQuotesNone(Text(q));
    case NodesCount(l) =>
      CountQueryQuotesLabel(l);
    case Nodes(l, limit) =>
      var tail := ").limit(" + LimitText(limit) + ").valueMap(true).toList()";
      assert Text(q) == VertexPrefix + Quote(l) + tail;
      VertexQueryQuotesLabel(l, tail);
    case SchemaRows(element, l, limit) =>
      SchemaRowsQuotesLabel(element, l, limit);
    case OutEdgesCount(l) =>
      OutEdgesQueryQuotesLabel(l);
    case Relationships(l, edgeLimit) =>
      RelationshipsQuotesLabel(l, edgeLimit);
    case CountRelationships(start, relationship, end) =>
      CountRelationshipsQueryEmbedsLabels(start, relationship, end);
      OddOfSeven(EdgePrefix, relationship, CountWhere, start, CountIn, end, CountTail);
    case RelationshipData(start, relationship, end, limit) =>
      RelationshipDataQueryEmbedsLabels(start, relationship, end, limit);
      OddOfSeven(EdgePrefix, relationship, DataWhere, start, DataIn, end,
        DataClose + LimitText(limit) + ").valueMap(true).toList()");
  }

  lemma CountQueryQuotesLabel(l: string)
    requires '\'' !in l
    ensures OddPieces(SplitQuotes(Text(NodesCount(l)))) == [l]
  {
    VertexQueryQuotesLabel(l, ").count().next()");
  }

  lemma OutEdgesQueryQuotesLabel(l: string)
    requires '\'' !in l
    ensures OddPieces(SplitQuotes(Text(OutEdgesCount(l)))) == [l]
  {
    VertexQueryQuotesLabel(l, ").outE().count()");
  }

  /** A vertex query quotes only its label. */
  lemma VertexQueryQuotesLabel(l: string, tail: string)
    requires '\'' !in l && '\'' !in tail
    ensures OddPieces(SplitQuotes(VertexPrefix + Quote(l) + tail)) == [l]
  {
    FixedTextsQuoteFree();
    OneLiteral(VertexPrefix + Quote(l) + tail, VertexPrefix, l, tail);
    assert [VertexPrefix, l, tail][2..] == [tail];
  }

  lemma SchemaRowsQuotesLabel(element: string, l: string, limit: Option<int>)
    requires '\'' !in element && '\'' !in l
    ensures OddPieces(SplitQuotes(Text(SchemaRows(element, l, limit)))) == [l]
  {
    var c0 := "g." + element + "().hasLabel(";
    var c1 := ").limit(" + LimitText(limit) + ").valueMap()";
    assert '\'' !in c0;
    assert '\'' !in c1;
    OneLiteral(Text(SchemaRows(element, l, limit)), c0, l, c1);
    assert [c0, l, c1][2..] == [c1];
  }

  lemma RelationshipsQuotesLabel(l: string, edgeLimit: int)
    requires '\'' !in l
    ensures OddPieces(SplitQuotes(Text(Relationships(l, edgeLimit)))) == [l, EdgeStep, EndStep, EdgeStep, EndStep]
  {
    var c1 := DiscoveryLimit + Decimal.IntToString(edgeLimit) + DiscoveryAs;
    assert Text(Relationships(l, edgeLimit))
        == VertexPrefix + Quote(l) + c1 + Quote(EdgeStep) + DiscoveryInV + Quote(EndStep) + DiscoverySelect
           + Quote(EdgeStep) + ", " + Quote(EndStep) + DiscoveryBy;
    DiscoveryTextsQuoteFree();
    FixedTextsQuoteFree();
    assert '\'' !in c1 by {
      assert LimitText(Some(edgeLimit)) == Decimal.IntToString(edgeLimit);
    }
    FiveLiterals(VertexPrefix, l, c1, EdgeStep, DiscoveryInV, EndStep, DiscoverySelect, EdgeStep, ", ", EndStep, DiscoveryBy);
    OddOfEleven([VertexPrefix, l, c1, EdgeStep, DiscoveryInV, EndStep, DiscoverySelect, EdgeStep, ", ", EndStep, DiscoveryBy]);
  }

  /** Five quote-free texts spliced between quote-free constants are the
      odd-numbered pieces of the result. */
  lemma FiveLiterals(
    c0: string, x1: string, c1: string, x2: string, c2: string, x3: string, c3: string,
    x4: string, c4: string, x5: string, c5: string)
    requires '\'' !in c0 && '\'' !in c1 && '\'' !in c2 && '\'' !in c3 && '\'' !in c4 && '\'' !in c5
    requires '\'' !in x1 && '\'' !in x2 && '\'' !in x3 && '\'' !in x4 && '\'' !in x5
    ensures SplitQuotes(c0 + Quote(x1) + c1 + Quote(x2) + c2 + Quote(x3) + c3 + Quote(x4) + c4 + Quote(x5) + c5)
         == [c0, x1, c1, x2, c2, x3, c3, x4, c4, x5, c5]
  {
    var p1 := c0 + Quote(x1) + c1;
    var p2 := p1 + Quote(x2) + c2;
    var p3 := p2 + Quote(x3) + c3;
    var p4 := p3 + Quote(x4) + c4;
    OneLiteral(p1, c0, x1, c1);
    ExtendLiteral(p1, [c0, x1, c1], x2, c2);
    ExtendLiteral(p2, [c0, x1, c1] + [x2, c2], x3, c3);
    ExtendLiteral(p3, [c0, x1, c1] + [x2, c2] + [x3, c3], x4, c4);
    ExtendLiteral(p4, [c0, x1, c1] + [x2, c2] + [x3, c3] + [x4, c4], x5, c5);
  }

  /** None of the fixed texts of the discovery query holds a quote. */
  lemma DiscoveryTextsQuoteFree()
    ensures '\'' !in DiscoveryLimit && '\'' !in DiscoveryAs && '\'' !in DiscoveryInV
    ensures '\'' !in DiscoverySelect && '\'' !in DiscoveryBy && '\'' !in ", "
    ensures '\'' !in EdgeStep && '\'' !in EndStep
  {
  }

  /** One more quoted literal and constant extend the pieces by two. */
  lemma ExtendLiteral(front: string, pieces: seq<string>, x: string, c: string)
    requires SplitQuotes(front) == pieces
    requires '\'' !in x && '\'' !in c
    ensures SplitQuotes(front + Quote(x) + c) == pieces + [x, c]
  {
    SplitQuotesLiteral(front, x, c);
    SplitQuotesNone(c);
  }

  lemma OddOfEleven(pieces: seq<string>)
    requires |pieces| == 11
    ensures OddPieces(pieces) == [pieces[1], pieces[3], pieces[5], pieces[7], pieces[9]]
  {
    assert OddPieces(pieces[10..]) == [];
    assert pieces[8..][2..] == pieces[10..];
    assert OddPieces(pieces[8..]) == [pieces[9]];
    assert pieces[6..][2..] == pieces[8..];
    assert OddPieces(pieces[6..]) == [pieces[7], pieces[9]];
    assert pieces[4..][2..] == pieces[6..];
    assert OddPieces(pieces[4..]) == [pieces[5], pieces[7], pieces[9]];
    assert pieces[2..][2..] == pieces[4..];
    assert OddPieces(pieces[2..]) == [pieces[3], pieces[5], pieces[7], pieces[9]];
  }

  lemma OddOfSeven(c0: string, x: string, c1: string, y: string, c2: string, z: string, c3: string)
    ensures OddPieces([c0, x, c1, y, c2, z, c3]) == [x, y, z]
  {
    assert [c2, z, c3][2..] == [c3];
    assert OddPieces([c2, z, c3]) == [z];
    assert [c1, y, c2, z, c3][2..] == [c2, z, c3];
    assert OddPieces([c1, y, c2, z, c3]) == [y, z];
    assert [c0, x, c1, y, c2, z, c3][2..] == [c1, y, c2, z, c3];
  }

  /** None of the fixed query texts holds a quote. */
  lemma FixedTextsQuoteFree()
    ensures '\'' !in VertexPrefix && '\'' !in EdgePrefix
    ensures '\'' !in CountWhere && '\'' !in CountIn && '\'' !in CountTail
    ensures '\'' !in DataWhere && '\'' !in DataIn && '\'' !in DataClose
  {
    VertexPrefixQuoteFree();
    EdgePrefixQuoteFree();
    CountWhereQuoteFree();
    CountInQuoteFree();
    CountTailQuoteFree();
    DataWhereQuoteFree();
    DataInQuoteFree();
    DataCloseQuoteFree();
  }

  // The eight lemmas below each check that one fixed text fragment holds no
  // quote. They state nothing about the source beyond those constants' contents;
  // they are separate only so that each proof stays small.

  lemma VertexPrefixQuoteFree()
    ensures '\'' !in VertexPrefix
  {
  }

  lemma EdgePrefixQuoteFree()
    ensures '\'' !in EdgePrefix
  {
  }

  lemma CountWhereQuoteFree()
    ensures '\'' !in CountWhere
  {
  }

  lemma CountInQuoteFree()
    ensures '\'' !in CountIn
  {
  }

  lemma CountTailQuoteFree()
    ensures '\'' !in CountTail
  {
  }

  lemma DataWhereQuoteFree()
    ensures '\'' !in DataWhere
  {
  }

  lemma DataInQuoteFree()
    ensures '\'' !in DataIn
  {
  }

  lemma DataCloseQuoteFree()
    ensures '\'' !in DataClose
  {
  }

  /** A discovered connection `start -relationship-> end`. */
  datatype Triple = Triple(start: string, relationship: string, end: string)

  /** `getLimit(count) || 100`: a zero limit falls back to 100. */
  function RelationshipLimit(computed: int): (r: int)
    ensures r != 0
    ensures computed != 0 ==> r == computed
    ensures computed == 0 ==> r == DefaultLimit
  {
    if computed == 0 then DefaultLimit else computed
  }

  /** The triples discovered from the outgoing edges of one label. */
  function LabelTriples(labelName: string, getLimit: int -> int, gateway: Gateway): (r: seq<Triple>)
    ensures var limit := RelationshipLimit(getLimit(gateway.count(OutEdgesCount(labelName))));
      var pairs := gateway.edgeEnds(Relationships(labelName, limit));
      && |r| == |pairs|
      && forall i :: 0 <= i < |r| ==> r[i] == Triple(labelName, pairs[i].0, pairs[i].1)
  {
    var limit := RelationshipLimit(getLimit(gateway.count(OutEdgesCount(labelName))));
    var pairs := gateway.edgeEnds(Relationships(labelName, limit));
    if |pairs| == 0 then []
    else seq(|pairs|, i requires 0 <= i < |pairs| => Triple(labelName, pairs[i].0, pairs[i].1))
  }

  /** `getRelationshipSchema`: the per-label triples, concatenated in label
      order. */
  function GetRelationshipSchema(labels: seq<string>, getLimit: int -> int, gateway: Gateway): (r: seq<Triple>)
    ensures forall t :: t in r ==> t.start in labels
  {
    if |labels| == 0 then []
    else
      var rest := GetRelationshipSchema(labels[1..], getLimit, gateway);
      assert forall t :: t in rest ==> t.start in labels by {
        assert forall l :: l in labels[1..] ==> l in labels;
      }
      LabelTriples(labels[0], getLimit, gateway) + rest
  }

  /** Discovery over `a + b` is discovery over `a` followed by discovery over
      `b`: results come back in label order. */
  lemma {:induction false} GetRelationshipSchemaAppend(a: seq<string>, b: seq<string>, getLimit: int -> int, gateway: Gateway)
    ensures GetRelationshipSchema(a + b, getLimit, gateway)
         == GetRelationshipSchema(a, getLimit, gateway) + GetRelationshipSchema(b, getLimit, gateway)
  {
    if |a| == 0 {
      assert a + b == b;
    } else {
      var first := LabelTriples(a[0], getLimit, gateway);
      assert (a + b)[0] == a[0];
      assert (a + b)[1..] == a[1..] + b;
      assert GetRelationshipSchema(a + b, getLimit, gateway)
          == first + GetRelationshipSchema(a[1..] + b, getLimit, gateway);
      GetRelationshipSchemaAppend(a[1..], b, getLimit, gateway);
    }
  }
}

=== FILE: sampling.dfy ===
/** How many records to sample from a population, in absolute or relative
    mode (reverse_engineering/api.js, `getSampleDocSize`). */
module Sampling {

  datatype AbsoluteSettings = AbsoluteSettings(value: int)

  /** `relative.maxValue` exists in the settings object but the source never
      reads it: the cap is the top-level `maxValue`. */
  datatype RelativeSettings = RelativeSettings(value: int, maxValue: int)

  /** `recordSamplingSettings`. Any `active` other than "absolute" selects
      relative mode. */
  datatype SamplingSettings = SamplingSettings(
    active: string,
    absolute: AbsoluteSettings,
    relative: RelativeSettings,
    maxValue: int)

  const AbsoluteMode: string := "absolute"

  /** `Math.ceil(a / b)` for a positive divisor, on integers. */
  function CeilDiv(a: int, b: int): (q: int)
    requires b > 0
    ensures q * b >= a
    ensures (q - 1) * b < a
  {
    var f := (-a) / b;
    assert -a == f * b + (-a) % b;
    -f
  }

  /** The sample size for a population of `count` records. */
  function SampleDocSize(count: int, settings: SamplingSettings): (r: int)
    ensures settings.active == AbsoluteMode ==> r == settings.absolute.value
    ensures settings.active != AbsoluteMode ==>
      && r <= settings.maxValue
      && (r - 1) * 100 < count * settings.relative.value
      && (r == settings.maxValue || r * 100 >= count * settings.relative.value)
  {
    if settings.active == AbsoluteMode then
      settings.absolute.value
    else
      var limit := CeilDiv(count * settings.relative.value, 100);
      if limit <= settings.maxValue then limit else settings.maxValue
  }

  /** In absolute mode the population size plays no part, so the sample size
      can exceed the population. */
  lemma AbsoluteIgnoresCount(c1: int, c2: int, settings: SamplingSettings)
    requires settings.active == AbsoluteMode
    ensures SampleDocSize(c1, settings) == SampleDocSize(c2, settings) == settings.absolute.value
  {
  }

  /** In relative mode with a percentage in 0..100 the sample never exceeds the
      population, and it is non-negative when the cap is. */
  lemma RelativeWithinPopulation(count: int, settings: SamplingSettings)
    requires settings.active != AbsoluteMode
    requires count >= 0 && 0 <= settings.relative.value <= 100
    ensures SampleDocSize(count, settings) <= count
    ensures settings.maxValue >= 0 ==> SampleDocSize(count, settings) >= 0
  {
    var r := SampleDocSize(count, settings);
    var v := settings.relative.value;
    RoundedUpWithinPopulation(r, count, v);
    if settings.maxValue >= 0 && r != settings.maxValue {
      RoundedUpNonNegative(r, count, v);
    }
  }

  /** A share of at most 100% of `count`, rounded up, is at most `count`. */
  lemma RoundedUpWithinPopulation(r: int, count: int, v: int)
    requires count >= 0 && 0 <= v <= 100
    requires (r - 1) * 100 < count * v
    ensures r <= count
  {
    MulMono(count, v, 100);
    ScaleBack(r - 1, count, 100);
  }

  /** Rounding up a non-negative share gives a non-negative size. */
  lemma RoundedUpNonNegative(r: int, count: int, v: int)
    requires count >= 0 && v >= 0
    requires r * 100 >= count * v
    ensures r >= 0
  {
    MulMono(count, 0, v);
    ScaleBack(-1, r, 100);
  }

  /** Multiplying by a non-negative factor keeps the order. */
  lemma MulMono(a: int, b: int, c: int)
    requires a >= 0 && b <= c
    ensures a * b <= a * c
  {
    assert a * c - a * b == a * (c - b);
  }

  /** Dividing both sides of a strict inequality by a positive factor. */
  lemma ScaleBack(a: int, b: int, k: int)
    requires k > 0 && a * k < b * k
    ensures a < b
  {
  }

  /** The cap nested under `relative` is never consulted. */
  lemma NestedCapIgnored(count: int, settings: SamplingSettings, otherCap: int)
    ensures SampleDocSize(count, settings)
         == SampleDocSize(count, settings.(relative := settings.relative.(maxValue := otherCap)))
  {
  }
}

=== FILE: schema.dfy ===
/** Schema inference across sampled rows (reverse_engineering/api.js,
    `getSchema`). Each structured row is converted to a JSON Schema by a
    converter that is not part of this model; it is a parameter here, giving
    the `properties` of each converted row. */
module Schema {

  /** The accumulated schema, `{ properties: { ... } }`. */
  datatype JsonSchema<S> = JsonSchema(properties: map<string, S>)

  /** The property names of all converted rows. */
  ghost function AllNames<G, S>(rows: seq<G>, convert: G -> map<string, S>): set<string>
  {
    set i, k | 0 <= i < |rows| && k in convert(rows[i]) :: k
  }

  /** No row after row `i` defines property `k`. */
  ghost predicate LastDefinedAt<G, S>(rows: seq<G>, convert: G -> map<string, S>, i: nat, k: string)
    requires i < |rows|
  {
    forall j :: i < j < |rows| ==> k !in convert(rows[j])
  }

  /** `getSchema`: a left fold that spreads each converted row's properties
      over the properties accumulated so far. */
  function GetSchema<G, S>(rows: seq<G>, convert: G -> map<string, S>): (r: JsonSchema<S>)
    decreases |rows|
    ensures r.properties.Keys == AllNames(rows, convert)
  {
    if |rows| == 0 then JsonSchema(map[])
    else
      var n := |rows|;
      var acc := GetSchema(rows[..n - 1], convert);
      assert AllNames(rows, convert) == AllNames(rows[..n - 1], convert) + convert(rows[n - 1]).Keys by {
        forall k | k in AllNames(rows, convert)
          ensures k in AllNames(rows[..n - 1], convert) + convert(rows[n - 1]).Keys
        {
          var i :| 0 <= i < n && k in convert(rows[i]);
          if i < n - 1 {
            assert rows[..n - 1][i] == rows[i];
          }
        }
      }
      JsonSchema(acc.properties + convert(rows[n - 1]))
  }

  /** The value kept for a property is the one from the last row defining it. */
  lemma {:induction false} LaterRowWins<G, S>(rows: seq<G>, convert: G -> map<string, S>, i: nat, k: string)
    requires i < |rows| && k in convert(rows[i]) && LastDefinedAt(rows, convert, i, k)
    ensures GetSchema(rows, convert).properties[k] == convert(rows[i])[k]
    decreases |rows|
  {
    var n := |rows|;
    if i < n - 1 {
      assert k !in convert(rows[n - 1]);
      assert rows[..n - 1][i] == rows[i];
      assert LastDefinedAt(rows[..n - 1], convert, i, k) by {
        assert forall j :: i < j < n - 1 ==> rows[..n - 1][j] == rows[j];
      }
      LaterRowWins(rows[..n - 1], convert, i, k);
    }
  }

  /** Folding `a + b` is folding `b` on top of the result of folding `a`. */
  lemma {:induction false} GetSchemaAppend<G, S>(a: seq<G>, b: seq<G>, convert: G -> map<string, S>)
    ensures GetSchema(a + b, convert).properties
         == GetSchema(a, convert).properties + GetSchema(b, convert).properties
    decreases |b|
  {
    if |b| == 0 {
      assert a + b == a;
    } else {
      var m := |b|;
      assert (a + b)[..|a + b| - 1] == a + b[..m - 1];
      assert (a + b)[|a + b| - 1] == b[m - 1];
      GetSchemaAppend(a, b[..m - 1], convert);
    }
  }

  /** Schema union is monotone: more rows never remove a property. */
  lemma SchemaMonotone<G, S>(a: seq<G>, b: seq<G>, convert: G -> map<string, S>)
    ensures GetSchema(a, convert).properties.Keys <= GetSchema(a + b, convert).properties.Keys
  {
    GetSchemaAppend(a, b, convert);
  }

  /** No rows give `{ properties: {} }`. */
  lemma EmptyRowsGiveEmptySchema<G, S>(convert: G -> map<string, S>)
    ensures GetSchema([], convert) == JsonSchema(map[])
  {
  }
}

=== FILE: script.dfy ===
/** The forward-engineering script text: how `generateContainerScript`
    (forward_engineering/api.js) assembles the vertex and edge blocks, and how
    `parseScriptStatements` (forward_engineering/applyToInstanceHelper.js)
    splits a script back into statements and routes them. */
module Script {
  import opened Seqs

  /** The block delimiter, a blank line. */
  const Delimiter: string := "\n\n"

  /** The prefix of a vertex-creation statement. */
  const AddVertex: string := "g.addV"

  // ---------------------------------------------------------------------
  // Assembly

  /** `generateContainerScript` as written: the vertex block if it is not
      empty, then `"\n\n"` and the edge block if that is not empty. With an
      empty vertex block the delimiter still comes first. */
  function GenerateContainerScript(vertices: string, edges: string): (r: string)
    ensures vertices == "" && edges == "" ==> r == ""
    ensures edges == "" ==> r == vertices
    ensures edges != "" ==> r == vertices + Delimiter + edges
  {
    var withVertices := if vertices != "" then vertices else "";
    if edges != "" then withVertices + Delimiter + edges else withVertices
  }

  /** Assembly as intended: the delimiter only between two non-empty blocks. */
  function GenerateContainerScriptFixed(vertices: string, edges: string): (r: string)
    ensures vertices == "" ==> r == edges
    ensures edges == "" ==> r == vertices
    ensures vertices != "" && edges != "" ==> r == vertices + Delimiter + edges
  {
    if vertices == "" then edges
    else if edges == "" then vertices
    else vertices + Delimiter + edges
  }

  // ---------------------------------------------------------------------
  // Splitting on the delimiter

  /** `s` contains no blank line. */
  predicate NoDelimiter(s: string)
  {
    forall i :: 0 <= i < |s| - 1 ==> !(s[i] == '\n' && s[i + 1] == '\n')
  }

  /** The number of delimiters `split` cuts at: occurrences found scanning
      left to right, each search resuming after the previous match. */
  function DelimiterCount(s: string): nat
    decreases |s|
  {
    if |s| < 2 then 0
    else if s[0] == '\n' && s[1] == '\n' then 1 + DelimiterCount(s[2..])
    else DelimiterCount(s[1..])
  }

  /** `s.split("\n\n")`. */
  function Split(s: string): (r: seq<string>)
    decreases |s|
    ensures |r| == DelimiterCount(s) + 1
    ensures r[0] <= s
    ensures forall i :: 0 <= i < |r| ==> NoDelimiter(r[i])
  {
    if |s| < 2 then [s]
    else if s[0] == '\n' && s[1] == '\n' then [""] + Split(s[2..])
    else
      var rest := Split(s[1..]);
      var first := [s[0]] + rest[0];
      assert NoDelimiter(first) by {
        if |rest[0]| > 0 {
          assert rest[0][0] == s[1..][0];
          forall i | 1 <= i < |first| - 1
            ensures !(first[i] == '\n' && first[i + 1] == '\n')
          {
            assert first[i] == rest[0][i - 1] && first[i + 1] == rest[0][i];
          }
        }
      }
      assert forall i :: 1 <= i < |rest| ==> ([first] + rest[1..])[i] == rest[i];
      [first] + rest[1..]
  }

  /** `pieces.join("\n\n")`. */
  function Join(pieces: seq<string>): string
  {
    if |pieces| == 0 then ""
    else if |pieces| == 1 then pieces[0]
    else pieces[0] + Delimiter + Join(pieces[1..])
  }

  /** Splitting loses nothing: joining the pieces gives the script back. */
  lemma {:induction false} JoinSplit(s: string)
    ensures Join(Split(s)) == s
    decreases |s|
  {
    if |s| < 2 {
    } else if s[0] == '\n' && s[1] == '\n' {
      JoinSplit(s[2..]);
      assert s == "" + Delimiter + s[2..];
    } else {
      var rest := Split(s[1..]);
      JoinSplit(s[1..]);
      var r := Split(s);
      assert r[0] == [s[0]] + rest[0];
      assert r[1..] == rest[1..];
      if |rest| == 1 {
        assert s == [s[0]] + s[1..];
      } else {
        assert Join(rest) == rest[0] + Delimiter + Join(rest[1..]);
        assert s == [s[0]] + s[1..];
      }
    }
  }

  /** A piece that has no blank line and does not end in a newline is cut off
      whole at the delimiter that follows it. */
  lemma {:induction false} SplitAfterPiece(p: string, rest: string)
    requires NoDelimiter(p)
    requires |p| == 0 || p[|p| - 1] != '\n'
    ensures Split(p + Delimiter + rest) == [p] + Split(rest)
    decreases |p|
  {
    var s := p + Delimiter + rest;
    if |p| == 0 {
      assert s == Delimiter + rest;
      assert s[2..] == rest;
    } else {
      var q := p[1..];
      assert s[1..] == q + Delimiter + rest;
      assert NoDelimiter(q) by {
        forall i | 0 <= i < |q| - 1
          ensures !(q[i] == '\n' && q[i + 1] == '\n')
        {
          assert q[i] == p[i + 1] && q[i + 1] == p[i + 2];
        }
      }
      SplitAfterPiece(q, rest);
      if |q| == 0 {
        assert s[1] == '\n';
        assert s[0] != '\n';
      } else {
        assert s[1] == q[0] == p[1];
      }
      assert p == [p[0]] + q;
    }
  }

  /** A text without a blank line is a single piece. */
  lemma SplitWhole(p: string)
    requires NoDelimiter(p)
    ensures Split(p) == [p]
  {
    JoinSplit(p);
    assert DelimiterCount(p) == 0 by {
      DelimiterCountNone(p);
    }
  }

  /** No blank line means nothing to count. */
  lemma {:induction false} DelimiterCountNone(p: string)
    requires NoDelimiter(p)
    ensures DelimiterCount(p) == 0
    decreases |p|
  {
    if |p| >= 2 {
      assert NoDelimiter(p[1..]) by {
        forall i | 0 <= i < |p[1..]| - 1
          ensures !(p[1..][i] == '\n' && p[1..][i + 1] == '\n')
        {
          assert p[1..][i] == p[i + 1] && p[1..][i + 1] == p[i + 2];
        }
      }
      DelimiterCountNone(p[1..]);
    }
  }

  /** A statement that survives a join and split unchanged: not empty, no
      blank line inside, no trailing newline. */
  predicate WellFormedPiece(p: string)
  {
    |p| > 0 && NoDelimiter(p) && p[|p| - 1] != '\n'
  }

  /** Splitting inverts joining, for well-formed pieces. */
  lemma {:induction false} SplitJoin(pieces: seq<string>)
    requires |pieces| > 0
    requires forall i :: 0 <= i < |pieces| ==> WellFormedPiece(pieces[i])
    ensures Split(Join(pieces)) == pieces
  {
    if |pieces| == 1 {
      SplitWhole(pieces[0]);
    } else {
      SplitJoin(pieces[1..]);
      SplitAfterPiece(pieces[0], Join(pieces[1..]));
      assert pieces == [pieces[0]] + pieces[1..];
    }
  }

  /** Joining two non-empty lists is joining each and putting the delimiter
      between them. */
  lemma {:induction false} JoinAppend(a: seq<string>, b: seq<string>)
    requires |a| > 0 && |b| > 0
    ensures Join(a + b) == Join(a) + Delimiter + Join(b)
  {
    if |a| == 1 {
      assert (a + b)[1..] == b;
    } else {
      JoinAppend(a[1..], b);
      assert (a + b)[1..] == a[1..] + b;
    }
  }

  /** The joined text is empty only when there is nothing to join. */
  lemma JoinEmpty(pieces: seq<string>)
    requires forall i :: 0 <= i < |pieces| ==> pieces[i] != ""
    ensures Join(pieces) == "" <==> |pieces| == 0
  {
    if |pieces| > 1 {
      assert |Join(pieces)| >= |Delimiter|;
    }
  }

  // ---------------------------------------------------------------------
  // Whitespace after a period

  /** The characters JavaScript's `\s` matches: the ECMAScript white space and
      line terminators. */
  predicate IsSpace(c: char)
  {
    || c == ' ' || c == '\t' || c == '\n' || c == '\r' || c == '\U{000B}' || c == '\U{000C}'
    || c == '\U{00A0}' || c == '\U{1680}' || ('\U{2000}' <= c <= '\U{200A}')
    || c == '\U{2028}' || c == '\U{2029}' || c == '\U{202F}' || c == '\U{205F}'
    || c == '\U{3000}' || c == '\U{FEFF}'
  }

  /** `s` without its leading run of white space. */
  function DropSpaces(s: string): (r: string)
    ensures |r| <= |s|
    ensures |r| == 0 || !IsSpace(r[0])
    ensures r == s[|s| - |r|..]
    ensures forall i :: 0 <= i < |s| - |r| ==> IsSpace(s[i])
  {
    if |s| > 0 && IsSpace(s[0]) then DropSpaces(s[1..]) else s
  }

  /** No period in `s` is directly followed by white space. */
  predicate NoDotSpace(s: string)
  {
    forall i :: 0 <= i < |s| - 1 ==> s[i] == '.' ==> !IsSpace(s[i + 1])
  }

  /** `s.replace(/\.\s+/g, '.')`: every period followed by white space loses
      that whole run of white space. */
  function NormalizeStatement(s: string): (r: string)
    decreases |s|
    ensures |r| <= |s|
    ensures |r| > 0 ==> |s| > 0 && r[0] == s[0]
    ensures NoDotSpace(r)
  {
    if |s| == 0 then ""
    else if s[0] == '.' then
      var rest := NormalizeStatement(DropSpaces(s[1..]));
      assert forall i :: 1 <= i < |rest| + 1 ==> ("." + rest)[i] == rest[i - 1];
      "." + rest
    else
      var rest := NormalizeStatement(s[1..]);
      assert forall i :: 1 <= i < |rest| + 1 ==> ([s[0]] + rest)[i] == rest[i - 1];
      [s[0]] + rest
  }

  /** A statement without a period-space pair is left alone. */
  lemma {:induction false} NormalizeClean(s: string)
    requires NoDotSpace(s)
    ensures NormalizeStatement(s) == s
    decreases |s|
  {
    if |s| > 0 {
      assert NoDotSpace(s[1..]) by {
        forall i | 0 <= i < |s[1..]| - 1 && s[1..][i] == '.'
          ensures !IsSpace(s[1..][i + 1])
        {
          assert s[1..][i] == s[i + 1] && s[1..][i + 1] == s[i + 2];
        }
      }
      if s[0] == '.' && |s| > 1 {
        assert !IsSpace(s[1]);
      }
      NormalizeClean(s[1..]);
    }
  }

  /** Normalising twice is normalising once. */
  lemma NormalizeIdempotent(s: string)
    ensures NormalizeStatement(NormalizeStatement(s)) == NormalizeStatement(s)
  {
    NormalizeClean(NormalizeStatement(s));
  }

  predicate NotSpace(c: char)
  {
    !IsSpace(c)
  }

  /** The characters that are not white space, in order. */
  function Visible(s: string): string
  {
    Filter(s, NotSpace)
  }

  /** Normalising only deletes: the result is a subsequence of the
      statement. */
  lemma {:induction false} NormalizeIsSubseq(s: string)
    ensures IsSubseq(NormalizeStatement(s), s)
    decreases |s|
  {
    if |s| > 0 {
      if s[0] == '.' {
        var t := DropSpaces(s[1..]);
        NormalizeIsSubseq(t);
        SubseqOfSuffix(NormalizeStatement(t), s[1..], |s[1..]| - |t|);
      } else {
        NormalizeIsSubseq(s[1..]);
      }
    }
  }

  /** Normalising deletes only white space: every other character survives,
      in order. */
  lemma {:induction false} NormalizeKeepsVisible(s: string)
    ensures Visible(NormalizeStatement(s)) == Visible(s)
    decreases |s|
  {
    if |s| > 0 {
      var r := NormalizeStatement(s);
      var t := if s[0] == '.' then DropSpaces(s[1..]) else s[1..];
      NormalizeKeepsVisible(t);
      if s[0] == '.' {
        VisibleOfSpaces(s[1..], |s[1..]| - |t|);
      }
      assert r == [s[0]] + NormalizeStatement(t);
      assert s == [s[0]] + s[1..];
      FilterConcat([s[0]], NormalizeStatement(t), NotSpace);
      FilterConcat([s[0]], s[1..], NotSpace);
    }
  }

  /** Removing a prefix of white space leaves the visible characters. */
  lemma {:induction false} VisibleOfSpaces(s: string, k: nat)
    requires k <= |s|
    requires forall i :: 0 <= i < k ==> IsSpace(s[i])
    ensures Visible(s[k..]) == Visible(s)
    decreases k
  {
    if k > 0 {
      assert s[1..][k - 1..] == s[k..];
      VisibleOfSpaces(s[1..], k - 1);
    }
  }

  // ---------------------------------------------------------------------
  // Routing

  /** `statement.startsWith('g.addV')`. */
  predicate IsVertexStatement(s: string)
  {
    AddVertex <= s
  }

  /** Any statement that is not a vertex statement goes to the edge group. */
  predicate IsEdgeStatement(s: string)
  {
    !IsVertexStatement(s)
  }

  /** The statements of a script: the pieces between delimiters, each
      normalised. */
  function Statements(script: string): (r: seq<string>)
    ensures |r| == DelimiterCount(script) + 1
    ensures forall i :: 0 <= i < |r| ==> NoDotSpace(r[i])
  {
    var pieces := Split(script);
    seq(|pieces|, i requires 0 <= i < |pieces| => NormalizeStatement(pieces[i]))
  }

  /** The vertex statements and the others, as `parseScriptStatements`
      returns them. */
  datatype Routed = Routed(labels: seq<string>, edges: seq<string>)

  /** `parseScriptStatements` with lodash `_.partition`: the statements that
      start with `g.addV` and the rest, each group in script order. */
  function ParseScriptStatements(script: string): (r: Routed)
    ensures |r.labels| + |r.edges| == DelimiterCount(script) + 1
    ensures forall s :: s in r.labels ==> IsVertexStatement(s)
    ensures forall s :: s in r.edges ==> !IsVertexStatement(s)
    ensures multiset(r.labels) + multiset(r.edges) == multiset(Statements(script))
    ensures IsSubseq(r.labels, Statements(script)) && IsSubseq(r.edges, Statements(script))
  {
    var statements := Statements(script);
    var labels := Filter(statements, IsVertexStatement);
    var edges := Filter(statements, IsEdgeStatement);
    FilterPartition(statements, IsVertexStatement, IsEdgeStatement);
    assert |multiset(labels)| == |labels| && |multiset(edges)| == |edges|;
    assert |multiset(statements)| == |statements|;
    FilterIsSubseq(statements, IsVertexStatement);
    FilterIsSubseq(statements, IsEdgeStatement);
    Routed(labels, edges)
  }

  /** A statement the round trip carries unchanged. */
  predicate Clean(s: string)
  {
    WellFormedPiece(s) && NoDotSpace(s)
  }

  /** Generating a script from clean vertex statements and clean edge
      statements (with the fixed assembly) and parsing it back gives the
      same statements in the same groups. */
  lemma {:induction false} RoundTrip(vertices: seq<string>, edges: seq<string>)
    requires forall i :: 0 <= i < |vertices| ==> Clean(vertices[i]) && IsVertexStatement(vertices[i])
    requires forall i :: 0 <= i < |edges| ==> Clean(edges[i]) && !IsVertexStatement(edges[i])
    requires |vertices| + |edges| > 0
    ensures ParseScriptStatements(GenerateContainerScriptFixed(Join(vertices), Join(edges))) == Routed(vertices, edges)
  {
    var all := vertices + edges;
    JoinedBlocks(vertices, edges);
    StatementsOfJoin(all);
    RouteJoined(vertices, edges);
    ParseOf(Join(all), all);
  }

  /** The fixed assembly of two joined blocks is the join of all their
      statements. */
  lemma {:induction false} JoinedBlocks(vertices: seq<string>, edges: seq<string>)
    requires forall i :: 0 <= i < |vertices| ==> vertices[i] != ""
    requires forall i :: 0 <= i < |edges| ==> edges[i] != ""
    ensures GenerateContainerScriptFixed(Join(vertices), Join(edges)) == Join(vertices + edges)
  {
    JoinEmpty(vertices);
    JoinEmpty(edges);
    if |vertices| == 0 {
      assert vertices + edges == edges;
    } else if |edges| == 0 {
      assert vertices + edges == vertices;
    } else {
      JoinAppend(vertices, edges);
    }
  }

  /** Clean statements joined with the delimiter are read back as
      themselves. */
  lemma {:induction false} StatementsOfJoin(all: seq<string>)
    requires |all| > 0
    requires forall i :: 0 <= i < |all| ==> Clean(all[i])
    ensures Statements(Join(all)) == all
  {
    SplitJoin(all);
    var statements := Statements(Join(all));
    forall i | 0 <= i < |all|
      ensures statements[i] == all[i]
    {
      NormalizeClean(all[i]);
    }
  }

  /** Routing vertex statements followed by edge statements gives the two
      groups back. */
  lemma {:induction false} RouteJoined(vertices: seq<string>, edges: seq<string>)
    requires forall i :: 0 <= i < |vertices| ==> IsVertexStatement(vertices[i])
    requires forall i :: 0 <= i < |edges| ==> !IsVertexStatement(edges[i])
    ensures Filter(vertices + edges, IsVertexStatement) == vertices
    ensures Filter(vertices + edges, IsEdgeStatement) == edges
  {
    FilterConcat(vertices, edges, IsVertexStatement);
    FilterConcat(vertices, edges, IsEdgeStatement);
    FilterAll(vertices, IsVertexStatement);
    FilterNone(edges, IsVertexStatement);
    FilterNone(vertices, IsEdgeStatement);
    FilterAll(edges, IsEdgeStatement);
  }

  /** Parsing routes the script's statements, whatever they are. */
  lemma ParseOf(script: string, statements: seq<string>)
    requires Statements(script) == statements
    ensures ParseScriptStatements(script)
         == Routed(Filter(statements, IsVertexStatement), Filter(statements, IsEdgeStatement))
  {
  }

  /** The round trip needs statements that do not end in a newline: a vertex
      statement ending in one keeps the newline, the delimiter is found one
      character early, and the edge statement gains a leading newline. */
  lemma TrailingNewlineBreaksRoundTrip(vertex: string, edge: string)
    requires Clean(vertex) && IsVertexStatement(vertex)
    requires Clean(edge) && edge[0] != '\n'
    ensures ParseScriptStatements(GenerateContainerScriptFixed(vertex + "\n", edge))
         == Routed([vertex], ["\n" + edge])
  {
    var moved := "\n" + edge;
    var script := GenerateContainerScriptFixed(vertex + "\n", edge);
    LeadingNewlineKeepsClean(edge);
    assert Clean(moved) by {
      assert moved[|moved| - 1] == edge[|edge| - 1];
    }
    assert script == Join([vertex, moved]) by {
      assert [vertex, moved][1..] == [moved];
    }
    StatementsOfJoin([vertex, moved]);
    assert !IsVertexStatement(moved) by {
      assert moved[0] != AddVertex[0];
    }
    RouteTwo(vertex, moved);
    ParseOf(script, [vertex, moved]);
  }

  /** A vertex statement followed by an edge statement is routed one to each
      group. */
  lemma RouteTwo(vertex: string, edge: string)
    requires IsVertexStatement(vertex) && !IsVertexStatement(edge)
    ensures Filter([vertex, edge], IsVertexStatement) == [vertex]
    ensures Filter([vertex, edge], IsEdgeStatement) == [edge]
  {
    assert [vertex, edge][1..] == [edge];
  }

  /** A newline in front of a clean statement that does not start with one
      keeps it free of blank lines and period-space pairs. */
  lemma LeadingNewlineKeepsClean(edge: string)
    requires Clean(edge) && edge[0] != '\n'
    ensures NoDelimiter("\n" + edge) && NoDotSpace("\n" + edge)
  {
    var moved := "\n" + edge;
    forall i | 0 <= i < |moved| - 1
      ensures !(moved[i] == '\n' && moved[i + 1] == '\n')
      ensures moved[i] == '.' ==> !IsSpace(moved[i + 1])
    {
      if i > 0 {
        assert moved[i] == edge[i - 1] && moved[i + 1] == edge[i];
      }
    }
  }

  /** As written, an empty vertex block makes the script start with the
      delimiter, and parsing yields an extra empty edge statement in front of
      the edge statements. */
  lemma EmptyVerticesAddEmptyEdge(edges: string)
    requires edges != ""
    ensures ParseScriptStatements(GenerateContainerScript("", edges))
         == Routed(ParseScriptStatements(edges).labels, [""] + ParseScriptStatements(edges).edges)
  {
    var script := GenerateContainerScript("", edges);
    assert script == "" + Delimiter + edges;
    SplitAfterPiece("", edges);
    var statements := Statements(script);
    assert statements == [""] + Statements(edges) by {
      assert Split(script) == [""] + Split(edges);
      forall i | 0 <= i < |statements|
        ensures statements[i] == ([""] + Statements(edges))[i]
      {
      }
    }
    assert !IsVertexStatement("");
    FilterConcat([""], Statements(edges), IsVertexStatement);
    FilterConcat([""], Statements(edges), IsEdgeStatement);
  }

  /** The script as written round-trips too once there is a vertex
      statement: a non-empty vertex block makes both assemblies agree. */
  lemma RoundTripAsWritten(vertices: seq<string>, edges: seq<string>)
    requires forall i :: 0 <= i < |vertices| ==> Clean(vertices[i]) && IsVertexStatement(vertices[i])
    requires forall i :: 0 <= i < |edges| ==> Clean(edges[i]) && !IsVertexStatement(edges[i])
    requires |vertices| > 0
    ensures ParseScriptStatements(GenerateContainerScript(Join(vertices), Join(edges))) == Routed(vertices, edges)
  {
    JoinEmpty(vertices);
    assert GenerateContainerScript(Join(vertices), Join(edges)) == GenerateContainerScriptFixed(Join(vertices), Join(edges));
    RoundTrip(vertices, edges);
  }

  /** With the fixed assembly an empty vertex block adds nothing. */
  lemma FixedEmptyVertices(edges: string)
    ensures ParseScriptStatements(GenerateContainerScriptFixed("", edges)) == ParseScriptStatements(edges)
  {
  }
}

=== FILE: seqs.dfy ===
/** Order-preserving filtering of sequences (JavaScript `Array.prototype.filter`
    and lodash `_.partition`) and the subsequence relation it establishes. */
module Seqs {

  /** The elements of `s` that satisfy `p`, in their original order. */
  function Filter<T>(s: seq<T>, p: T -> bool): (r: seq<T>)
    ensures |r| <= |s|
    ensures forall x :: x in r ==> x in s && p(x)
  {
    if |s| == 0 then []
    else if p(s[0]) then [s[0]] + Filter(s[1..], p)
    else Filter(s[1..], p)
  }

  /** `sub` can be obtained from `s` by deleting elements (greedy leftmost
      matching decides this exactly). */
  predicate IsSubseq<T(==)>(sub: seq<T>, s: seq<T>)
    decreases |s|
  {
    if |sub| == 0 then true
    else if |s| == 0 then false
    else if sub[0] == s[0] then IsSubseq(sub[1..], s[1..])
    else IsSubseq(sub, s[1..])
  }

  /** Every element of `s` satisfying `p` is kept. */
  lemma {:induction false} FilterKeeps<T>(s: seq<T>, p: T -> bool, x: T)
    requires x in s && p(x)
    ensures x in Filter(s, p)
  {
    if s[0] != x {
      assert x in s[1..];
      FilterKeeps(s[1..], p, x);
    }
  }

  /** Filtering distributes over concatenation: nothing is reordered across
      the boundary. */
  lemma {:induction false} FilterConcat<T>(a: seq<T>, b: seq<T>, p: T -> bool)
    ensures Filter(a + b, p) == Filter(a, p) + Filter(b, p)
  {
    if |a| == 0 {
      assert a + b == b;
    } else {
      assert (a + b)[0] == a[0];
      assert (a + b)[1..] == a[1..] + b;
      FilterConcat(a[1..], b, p);
    }
  }

  /** The filtered sequence is a subsequence of the original. */
  lemma {:induction false} FilterIsSubseq<T>(s: seq<T>, p: T -> bool)
    ensures IsSubseq(Filter(s, p), s)
  {
    if |s| > 0 {
      FilterIsSubseq(s[1..], p);
      if !p(s[0]) {
        var f := Filter(s[1..], p);
        if |f| > 0 {
          assert f[0] in f;
          assert f[0] != s[0];
        }
      }
    }
  }

  /** Filtering keeps every copy of an element that satisfies `p` and no
      copy of one that does not. */
  lemma {:induction false} FilterCount<T>(s: seq<T>, p: T -> bool, x: T)
    ensures multiset(Filter(s, p))[x] == if p(x) then multiset(s)[x] else 0
  {
    if |s| > 0 {
      FilterCount(s[1..], p, x);
      assert s == [s[0]] + s[1..];
    }
  }

  /** lodash `_.partition`: splitting by `p` and by its negation `q` loses and
      duplicates nothing. */
  lemma {:induction false} FilterPartition<T>(s: seq<T>, p: T -> bool, q: T -> bool)
    requires forall i :: 0 <= i < |s| ==> q(s[i]) == !p(s[i])
    ensures multiset(Filter(s, p)) + multiset(Filter(s, q)) == multiset(s)
  {
    if |s| > 0 {
      FilterPartition(s[1..], p, q);
      assert s == [s[0]] + s[1..];
    }
  }

  /** A sequence all of whose elements satisfy `p` is its own filter. */
  lemma {:induction false} FilterAll<T>(s: seq<T>, p: T -> bool)
    requires forall i :: 0 <= i < |s| ==> p(s[i])
    ensures Filter(s, p) == s
  {
    if |s| > 0 {
      FilterAll(s[1..], p);
    }
  }

  /** A sequence none of whose elements satisfies `p` filters to nothing. */
  lemma {:induction false} FilterNone<T>(s: seq<T>, p: T -> bool)
    requires forall i :: 0 <= i < |s| ==> !p(s[i])
    ensures Filter(s, p) == []
  {
    if |s| > 0 {
      FilterNone(s[1..], p);
    }
  }

  /** Two predicates that agree on every element of `s` filter it alike. */
  lemma {:induction false} FilterCongruent<T>(s: seq<T>, p: T -> bool, q: T -> bool)
    requires forall i :: 0 <= i < |s| ==> p(s[i]) == q(s[i])
    ensures Filter(s, p) == Filter(s, q)
  {
    if |s| > 0 {
      FilterCongruent(s[1..], p, q);
    }
  }

  /** A subsequence of a suffix is a subsequence of the whole. */
  lemma {:induction false} SubseqOfSuffix<T>(sub: seq<T>, s: seq<T>, k: nat)
    requires k <= |s|
    requires IsSubseq(sub, s[k..])
    ensures IsSubseq(sub, s)
    decreases k
  {
    if k > 0 {
      assert s[1..][k - 1..] == s[k..];
      SubseqOfSuffix(sub, s[1..], k - 1);
      SubseqCons(sub, s);
    }
  }

  /** Dropping the head of a subsequence keeps it a subsequence. */
  lemma {:induction false} SubseqWeaken<T>(sub: seq<T>, s: seq<T>)
    requires |sub| > 0
    requires IsSubseq(sub, s)
    ensures IsSubseq(sub[1..], s)
    decreases |s|, 1
  {
    if sub[0] != s[0] {
      SubseqWeaken(sub, s[1..]);
      SubseqCons(sub[1..], s);
    } else {
      SubseqCons(sub[1..], s);
    }
  }

  /** A subsequence of the tail is a subsequence of the whole. */
  lemma {:induction false} SubseqCons<T>(sub: seq<T>, s: seq<T>)
    requires |s| > 0
    requires IsSubseq(sub, s[1..])
    ensures IsSubseq(sub, s)
    decreases |s|, 0
  {
    if |sub| > 0 && sub[0] == s[0] {
      SubseqWeaken(sub, s[1..]);
    }
  }
}

=== FILE: stable_sort.dfy ===
/** A stable sort by an integer key, the behaviour of `Array.prototype.sort`
    (stable since ECMAScript 2019) with a comparator that subtracts keys. */
module StableSort {
  import opened Seqs

  ghost predicate SortedBy<T>(s: seq<T>, key: T -> int)
  {
    forall i, j :: 0 <= i < j < |s| ==> key(s[i]) <= key(s[j])
  }

  /** Membership in the key class `k`. */
  function HasKey<T>(key: T -> int, k: int): T -> bool
  {
    x => key(x) == k
  }

  /** The elements of `s` whose key is `k`, in order. */
  function WithKey<T>(s: seq<T>, key: T -> int, k: int): seq<T>
  {
    Filter(s, HasKey(key, k))
  }

  /** Places `x` after every element of the sorted `s` whose key is not
      greater than its own. */
  function Insert<T>(s: seq<T>, x: T, key: T -> int): (r: seq<T>)
    requires SortedBy(s, key)
    ensures SortedBy(r, key)
    ensures multiset(r) == multiset(s) + multiset{x}
  {
    if |s| == 0 then [x]
    else if key(s[|s| - 1]) <= key(x) then s + [x]
    else
      var init, last := s[..|s| - 1], s[|s| - 1];
      SortedInit(s, key);
      var front := Insert(init, x, key);
      KeysBounded(front, init, x, key, key(last));
      InsertBeforeLast(s, x, key, front);
      front + [last]
  }

  /** Dropping the last element keeps a sequence sorted. */
  lemma SortedInit<T>(s: seq<T>, key: T -> int)
    requires |s| > 0 && SortedBy(s, key)
    ensures SortedBy(s[..|s| - 1], key)
  {
    var init := s[..|s| - 1];
    forall i, j | 0 <= i < j < |init|
      ensures key(init[i]) <= key(init[j])
    {
      assert init[i] == s[i] && init[j] == s[j];
    }
  }

  /** When `x` goes before the last element of `s`, putting that element
      back after the insertion into the rest gives a sorted permutation. */
  lemma InsertBeforeLast<T>(s: seq<T>, x: T, key: T -> int, front: seq<T>)
    requires |s| > 0
    requires SortedBy(front, key)
    requires multiset(front) == multiset(s[..|s| - 1]) + multiset{x}
    requires forall i :: 0 <= i < |front| ==> key(front[i]) <= key(s[|s| - 1])
    ensures SortedBy(front + [s[|s| - 1]], key)
    ensures multiset(front + [s[|s| - 1]]) == multiset(s) + multiset{x}
  {
    var r := front + [s[|s| - 1]];
    forall i, j | 0 <= i < j < |r|
      ensures key(r[i]) <= key(r[j])
    {
      if j < |front| {
        assert r[i] == front[i] && r[j] == front[j];
      } else {
        assert r[i] == front[i];
      }
    }
    assert s == s[..|s| - 1] + [s[|s| - 1]];
  }

  /** A sequence holding the elements of `rest` and `x`, all keyed at most
      `bound`, is keyed at most `bound`. */
  lemma KeysBounded<T>(front: seq<T>, rest: seq<T>, x: T, key: T -> int, bound: int)
    requires multiset(front) == multiset(rest) + multiset{x}
    requires SortedBy(rest, key) && (|rest| > 0 ==> key(rest[|rest| - 1]) <= bound)
    requires key(x) <= bound
    ensures forall i :: 0 <= i < |front| ==> key(front[i]) <= bound
  {
    forall i | 0 <= i < |front|
      ensures key(front[i]) <= bound
    {
      assert front[i] in multiset(front);
      if front[i] != x {
        assert front[i] in multiset(rest);
        var j :| 0 <= j < |rest| && rest[j] == front[i];
      }
    }
  }

  /** Inserting `x` appends it to its own key class and leaves every other
      class as it was. */
  lemma {:induction false} InsertWithKey<T>(s: seq<T>, x: T, key: T -> int, k: int)
    requires SortedBy(s, key)
    ensures WithKey(Insert(s, x, key), key, k) == WithKey(s, key, k) + WithKey([x], key, k)
  {
    var p := HasKey(key, k);
    if |s| == 0 {
    } else if key(s[|s| - 1]) <= key(x) {
      FilterConcat(s, [x], p);
    } else {
      var front, last := s[..|s| - 1], s[|s| - 1];
      assert s == front + [last];
      SortedInit(s, key);
      InsertWithKey(front, x, key, k);
      assert Insert(s, x, key) == Insert(front, x, key) + [last];
      FilterConcat(Insert(front, x, key), [last], p);
      FilterConcat(front, [last], p);
      if key(x) == k {
        assert Filter([last], p) == [];
      } else {
        assert Filter([x], p) == [];
      }
    }
  }

  /** Insertion sort: each element is inserted, in input order, into the
      sorted prefix. */
  function SortBy<T(==)>(s: seq<T>, key: T -> int): (r: seq<T>)
    ensures SortedBy(r, key)
    ensures multiset(r) == multiset(s)
  {
    if |s| == 0 then []
    else
      assert s == s[..|s| - 1] + [s[|s| - 1]];
      Insert(SortBy(s[..|s| - 1], key), s[|s| - 1], key)
  }

  /** Stability: within one key class the sorted order is the input order. */
  lemma {:induction false} SortByStable<T>(s: seq<T>, key: T -> int, k: int)
    ensures WithKey(SortBy(s, key), key, k) == WithKey(s, key, k)
  {
    if |s| > 0 {
      var front := s[..|s| - 1];
      var last := s[|s| - 1];
      SortByStable(front, key, k);
      InsertWithKey(SortBy(front, key), last, key, k);
      FilterConcat(front, [last], HasKey(key, k));
      assert s == front + [last];
    }
  }
}

=== FILE: template.dfy ===
/** The document template: every sampled document deep-merged, in order, into
    a seed object (reverse_engineering/api.js, `getTemplate`, which folds
    lodash `_.merge` over the documents). */
module Template {
  import opened Wrappers
  import opened JsValue

  function Max(a: nat, b: nat): nat { if a < b then b else a }

  function Lookup(m: map<string, Value>, k: string): Option<Value>
  {
    if k in m then Some(m[k]) else None
  }

  function At(s: seq<Value>, i: nat): Option<Value>
  {
    if i < |s| then Some(s[i]) else None
  }

  /** lodash `_.merge` of the source value `src` into the destination slot
      `dst` (`None` when the destination has no such key). Plain objects and
      arrays are merged key by key and index by index into the destination
      object or array (or into a fresh one when the destination is not of that
      kind); an `undefined` source keeps an existing destination value; every
      other value, maps included, is assigned as it is. */
  function MergeValue(dst: Option<Value>, src: Value): (r: Value)
    decreases src
    ensures src.Obj? ==> r.Obj? && r.fields.Keys >= src.fields.Keys
    ensures src.Obj? && dst.Some? && dst.value.Obj? ==>
      r.fields.Keys == dst.value.fields.Keys + src.fields.Keys
    ensures src.Obj? && !(dst.Some? && dst.value.Obj?) ==> r.fields.Keys == src.fields.Keys
    ensures src.Obj? ==> forall k :: k in src.fields && src.fields[k].Scalar? ==> r.fields[k] == src.fields[k]
    ensures src.Obj? && dst.Some? && dst.value.Obj? ==>
      forall k :: k in dst.value.fields && k !in src.fields ==> r.fields[k] == dst.value.fields[k]
    ensures src.List? ==> r.List? && |r.items| >= |src.items|
    ensures src.List? && dst.Some? && dst.value.List? ==>
      && |r.items| == Max(|dst.value.items|, |src.items|)
      && forall i :: |src.items| <= i < |dst.value.items| ==> r.items[i] == dst.value.items[i]
    ensures src.List? && !(dst.Some? && dst.value.List?) ==> |r.items| == |src.items|
    ensures src.List? ==> forall i :: 0 <= i < |src.items| && src.items[i].Scalar? ==> r.items[i] == src.items[i]
    ensures src.Scalar? || src.GMap? ==> r == src
    ensures src.Undefined? ==> r == dst.GetOr(Undefined)
  {
    match src
    case Obj(fields) =>
      var base := if dst.Some? && dst.value.Obj? then dst.value.fields else map[];
      Obj(map k | k in base.Keys + fields.Keys ::
            if k in fields then MergeValue(Lookup(base, k), fields[k]) else base[k])
    case List(items) =>
      var base := if dst.Some? && dst.value.List? then dst.value.items else [];
      List(seq(Max(|base|, |items|), i requires 0 <= i < Max(|base|, |items|) =>
            if i < |items| then MergeValue(At(base, i), items[i]) else base[i]))
    case Undefined => dst.GetOr(Undefined)
    case Scalar(_) => src
    case GMap(_) => src
  }

  /** `_.merge(template, document)`: a plain-object document is merged into the
      template; any other document contributes no keys. */
  function MergeDocument(template: map<string, Value>, document: Value): (r: map<string, Value>)
    ensures document.Obj? ==> r.Keys == template.Keys + document.fields.Keys
    ensures !document.Obj? ==> r == template
    ensures document.Obj? ==> forall k :: k in document.fields && document.fields[k].Scalar? ==>
      r[k] == document.fields[k]
    ensures document.Obj? ==> forall k :: k in template && k !in document.fields ==> r[k] == template[k]
  {
    if document.Obj? then MergeValue(Some(Obj(template)), document).fields else template
  }

  /** The keys of all plain-object documents. */
  ghost function DocumentKeys(documents: seq<Value>): set<string>
  {
    set i, k | 0 <= i < |documents| && documents[i].Obj? && k in documents[i].fields :: k
  }

  /** The reduce step of `getTemplate`, merging the documents in order. */
  function MergeAll(template: map<string, Value>, documents: seq<Value>): (r: map<string, Value>)
    decreases |documents|
    ensures r.Keys == template.Keys + DocumentKeys(documents)
  {
    if |documents| == 0 then template
    else
      var r := MergeAll(MergeDocument(template, documents[0]), documents[1..]);
      assert DocumentKeys(documents) ==
        (if documents[0].Obj? then documents[0].fields.Keys else {}) + DocumentKeys(documents[1..])
      by {
        forall k | k in DocumentKeys(documents)
          ensures k in (if documents[0].Obj? then documents[0].fields.Keys else {}) + DocumentKeys(documents[1..])
        {
          var i :| 0 <= i < |documents| && documents[i].Obj? && k in documents[i].fields;
          if i > 0 {
            assert documents[1..][i - 1] == documents[i];
          }
        }
        forall k | k in DocumentKeys(documents[1..])
          ensures k in DocumentKeys(documents)
        {
          var i :| 0 <= i < |documents[1..]| && documents[1..][i].Obj? && k in documents[1..][i].fields;
          assert documents[i + 1] == documents[1..][i];
        }
      }
      r
  }

  /** The seed: every root key bound to an empty object. */
  function Seed(rootKeys: seq<string>): (r: map<string, Value>)
    ensures r.Keys == set k | k in rootKeys
    ensures forall k :: k in r ==> r[k] == Obj(map[])
  {
    if |rootKeys| == 0 then map[]
    else Seed(rootKeys[..|rootKeys| - 1])[rootKeys[|rootKeys| - 1] := Obj(map[])]
  }

  /** `getTemplate(documents, rootKeys)`. A non-array `documents` gives the seed. */
  function GetTemplate(documents: Value, rootKeys: seq<string>): (r: map<string, Value>)
    ensures !documents.List? ==> r == Seed(rootKeys)
    ensures documents.List? ==> r.Keys == (set k | k in rootKeys) + DocumentKeys(documents.items)
  {
    if !documents.List? then Seed(rootKeys) else MergeAll(Seed(rootKeys), documents.items)
  }

  /** The value reached from `v` by following the object keys of `path`, or
      `None` when the chain breaks. */
  ghost function ValueAt(v: Value, path: seq<string>): Option<Value>
    decreases |path|
  {
    if |path| == 0 then Some(v)
    else if v.Obj? && path[0] in v.fields then ValueAt(v.fields[path[0]], path[1..])
    else None
  }

  /** `path` is a chain of object keys leading from `v` into nested objects. */
  ghost predicate HasPath(v: Value, path: seq<string>)
  {
    ValueAt(v, path).Some?
  }

  /** `v` holds a scalar at the end of `path`. */
  ghost predicate ScalarAt(v: Value, path: seq<string>)
  {
    ValueAt(v, path).Some? && ValueAt(v, path).value.Scalar?
  }

  /** Merging never loses a key path of the source, and a scalar the source
      holds at the end of a path is what the result holds there. */
  lemma {:induction false} MergeKeepsSourcePaths(dst: Option<Value>, src: Value, path: seq<string>)
    requires HasPath(src, path)
    ensures HasPath(MergeValue(dst, src), path)
    ensures ScalarAt(src, path) ==> ValueAt(MergeValue(dst, src), path) == ValueAt(src, path)
    decreases path
  {
    if |path| > 0 {
      var k := path[0];
      var base := if dst.Some? && dst.value.Obj? then dst.value.fields else map[];
      assert MergeValue(dst, src).fields[k] == MergeValue(Lookup(base, k), src.fields[k]);
      MergeKeepsSourcePaths(Lookup(base, k), src.fields[k], path[1..]);
    }
  }

  /** Folding `a + b` is folding `b` on top of the result of folding `a`. */
  lemma {:induction false} MergeAllAppend(template: map<string, Value>, a: seq<Value>, b: seq<Value>)
    ensures MergeAll(template, a + b) == MergeAll(MergeAll(template, a), b)
    decreases |a|
  {
    if |a| == 0 {
      assert a + b == b;
    } else {
      assert (a + b)[0] == a[0];
      assert (a + b)[1..] == a[1..] + b;
      MergeAllAppend(MergeDocument(template, a[0]), a[1..], b);
    }
  }

  /** Folding one more document merges it into the template built so far. */
  lemma {:induction false} MergeAllSnoc(template: map<string, Value>, documents: seq<Value>, last: Value)
    ensures MergeAll(template, documents + [last]) == MergeDocument(MergeAll(template, documents), last)
  {
    MergeAllAppend(template, documents, [last]);
    assert [last][1..] == [];
  }

  /** A key that no document holds keeps the value it had. */
  lemma {:induction false} MergeAllFrame(template: map<string, Value>, documents: seq<Value>, k: string)
    requires k in template
    requires forall j :: 0 <= j < |documents| && documents[j].Obj? ==> k !in documents[j].fields
    ensures k in MergeAll(template, documents) && MergeAll(template, documents)[k] == template[k]
    decreases |documents|
  {
    if |documents| > 0 {
      var next := MergeDocument(template, documents[0]);
      assert forall j :: 0 <= j < |documents[1..]| ==> documents[1..][j] == documents[j + 1];
      MergeAllFrame(next, documents[1..], k);
    }
  }

  /** A scalar that document `i` holds at the end of a key path is what the
      template holds there, unless a later document holds the path's first key:
      for a top-level key, the last document holding it wins. */
  lemma {:induction false} LaterDocumentWins(documents: seq<Value>, rootKeys: seq<string>, i: nat, path: seq<string>)
    requires i < |documents| && |path| > 0 && ScalarAt(documents[i], path)
    requires forall j :: i < j < |documents| && documents[j].Obj? ==> path[0] !in documents[j].fields
    ensures ValueAt(Obj(GetTemplate(List(documents), rootKeys)), path) == ValueAt(documents[i], path)
  {
    var before := MergeAll(Seed(rootKeys), documents[..i]);
    var after := MergeDocument(before, documents[i]);
    assert documents[..i] + documents[i..] == documents;
    MergeAllAppend(Seed(rootKeys), documents[..i], documents[i..]);
    assert documents[i..][0] == documents[i];
    assert documents[i..][1..] == documents[i + 1..];
    assert MergeAll(before, documents[i..]) == MergeAll(after, documents[i + 1..]);
    MergeKeepsSourcePaths(Some(Obj(before)), documents[i], path);
    assert ValueAt(Obj(after), path) == ValueAt(documents[i], path);
    var rest := documents[i + 1..];
    assert forall j :: 0 <= j < |rest| ==> rest[j] == documents[i + 1 + j];
    MergeAllFrame(after, rest, path[0]);
  }

  /** Every key path of the last document is a key path of the template, and a
      scalar it holds at the end of a path is what the template holds there. */
  lemma {:induction false} LastDocumentWins(documents: seq<Value>, rootKeys: seq<string>, path: seq<string>)
    requires |documents| > 0 && documents[|documents| - 1].Obj?
    requires HasPath(documents[|documents| - 1], path)
    ensures HasPath(Obj(GetTemplate(List(documents), rootKeys)), path)
    ensures ScalarAt(documents[|documents| - 1], path) ==>
      ValueAt(Obj(GetTemplate(List(documents), rootKeys)), path) == ValueAt(documents[|documents| - 1], path)
  {
    var n := |documents|;
    var before := MergeAll(Seed(rootKeys), documents[..n - 1]);
    MergeAllSnoc(Seed(rootKeys), documents[..n - 1], documents[n - 1]);
    assert documents[..n - 1] + [documents[n - 1]] == documents;
    assert GetTemplate(List(documents), rootKeys) == MergeDocument(before, documents[n - 1]);
    MergeKeepsSourcePaths(Some(Obj(before)), documents[n - 1], path);
  }

  /** A key path of an earlier document is not always a key path of the
      template: a later scalar at an ancestor key replaces the whole subtree,
      so `{a: {b: 1}}` followed by `{a: 5}` loses `a.b`. */
  lemma EarlierPathCanBeLost()
    ensures var documents := [Obj(map["a" := Obj(map["b" := Scalar(Num(1))])]), Obj(map["a" := Scalar(Num(5))])];
      && HasPath(documents[0], ["a", "b"])
      && !HasPath(Obj(GetTemplate(List(documents), [])), ["a", "b"])
  {
    var first := Obj(map["a" := Obj(map["b" := Scalar(Num(1))])]);
    var second := Obj(map["a" := Scalar(Num(5))]);
    var t := GetTemplate(List([first, second]), []);
    assert t["a"] == Scalar(Num(5)) by {
      assert [first] + [second] == [first, second];
      MergeAllSnoc(Seed([]), [first], second);
    }
    assert ValueAt(first, ["a", "b"]) == Some(Scalar(Num(1))) by {
      assert ["a", "b"][1..] == ["b"];
    }
    assert ValueAt(Obj(t), ["a", "b"]) == None by {
      assert ["a", "b"][1..] == ["b"];
    }
  }

  /** With no documents (or no array at all) the template is the seed, every
      root key holding an empty object. */
  lemma EmptyDocumentsGiveSeed(documents: Value, rootKeys: seq<string>)
    requires !documents.List? || |documents.items| == 0
    ensures GetTemplate(documents, rootKeys).Keys == set k | k in rootKeys
    ensures forall k :: k in GetTemplate(documents, rootKeys) ==> GetTemplate(documents, rootKeys)[k] == Obj(map[])
  {
  }
}

=== FILE: wrappers.dfy ===
/** Optional values, used where the source returns `null`/`undefined` to mean
    "nothing here" (a suppressed package, an omitted argument, no error). */
module Wrappers {

  datatype Option<+T> = None | Some(value: T) {

    /** Returns the wrapped value, or `default` when there is none. */
    function GetOr(default: T): T {
      match this
      case Some(v) => v
      case None => default
    }
  }
}
